=== FILE: README.md ===
# SMSA driver, modelled in Dafny

This project models the virtual-address driver of the SMSA disk simulator,
`project3_cis415/smsa_driver.c`. The driver's core is:

- the address decoders `getDrum` and `getBlock`, plus the byte offset `addr & 0xff`;
- the command-word packer `getOPCode`;
- `smsa_vmount` and `smsa_vunmount`;
- the block-spanning transfer loops `smsa_vread` and `smsa_vwrite`.

The device behind `smsa_operation` is abstract. It is any state `D` with a step
function that takes a command and, for DISK_WRITE, the staged block, and
returns the next state, a status and, for DISK_READ, a block.

Modules, in dependency order:

- `Address` (`address.dfy`): the address layout and the command word, in `bv32`.
- `Device` (`device.dfy`): commands, blocks and the abstract step function.
- `Schedule` (`schedule.dfy`): the control flow of the transfer loops.
  - This covers the bounds checks, the seek pair on the first block number, the rollover at block 256 and the bytes copied per pass.
  - It depends only on the configuration, the address and the length, never on what the device answers.
- `ScheduleFacts` (`schedule_facts.dfy`): properties of that control flow.
  - Which block each pass reads, and when the seek pair recurs.
  - Where the copied bytes sit in the virtual address space.
  - When the bounds checks end a call.
- `Run` (`run.dfy`): a whole call, pass by pass, against any device.
  - `ReadSpec` and `WriteSpec` give the status, the caller's buffer, the device and the command trace.
  - They are shown equal to running the precomputed plan.
- `Driver` (`driver.dfy`): `VRead` and `VWrite`, which follow the C loops statement by statement, plus `VMount` and `VUnmount`.
  - `VRead` and `VWrite` are proved to compute exactly `ReadSpec` and `WriteSpec`.
- `SimDisk` (`disk.dfy`): a reference disk with a head position, on which reads and writes are shown to reach the bytes at the virtual addresses.
  - SEEK_DRUM moves the head to block 0 of a drum, and SEEK_BLOCK moves it to a block.
  - DISK_READ and DISK_WRITE act at the head and advance it by one block.
- `Scenarios` (`scenarios.dfy`): three concrete calls and the commands they issue.

Where the code and its comments or design intent part ways, the model follows the code:

- The drum check is `drum > SMSA_DISK_ARRAY_SIZE`, so a drum equal to the array size is read (`ScheduleFacts.DrumEqualToArraySizeIsRead`).
- The rollover `drum++` (lines 129 and 198) comes after the drum check (lines 105 and 174) in the same pass. When `SMSA_MAX_BLOCK_ID` admits block 256, a pass at block 256 of drum `SMSA_DISK_ARRAY_SIZE` therefore reads drum `SMSA_DISK_ARRAY_SIZE + 1`, and the call can still return 0 (`ScheduleFacts.RolloverPastArraySizeIsRead`, `Scenarios.ReadRollsPastLastDrum`).
- The offset test compares block numbers (`block == firstBlock`), not the iteration count.
  - A transfer longer than a drum that starts at a nonzero block comes back to `firstBlock` after 256 passes. It then seeks again and re-applies the offset, so those bytes land `offset` places off (`ScheduleFacts.DrumWrapReappliesOffset`).
  - For this reason the results that place byte i at address addr + i (`SimDisk.ReadLinear`, `SimDisk.WriteLinear`) require `ScheduleFacts.NoMisplacedWrap`: `SMSA_MAX_BLOCK_ID` below 256, or a first block of 0, or an offset of 0, or at most 65536 - offset bytes.
  - Reads and writes still agree with each other. `ScheduleFacts.PlaceFrom` is the disk byte a call copies buffer index i to or from, misplaced or not, so a write followed by a read of the same address and length returns the bytes written for every address and length (`SimDisk.WriteThenRead`).
- Later passes issue no SEEK_BLOCK before DISK_READ, unless the block number comes back to `firstBlock` and the seek pair is issued again. A rollover pass issues only SEEK_DRUM. Otherwise they rely on the device leaving its head on the next block.
- `smsa_vwrite` issues SEEK_BLOCK to the block just read, then DISK_WRITE with the incremented block number (`block` after `block++`).

## Model

| member | source | states |
|---|---|---|
| Address.GetDrum | project3_cis415/smsa_driver.c:24-27 | the drum id is below 2^16, and shifted back into place together with the low 16 bits it rebuilds the address |
| Address.GetBlock | project3_cis415/smsa_driver.c:29-32 | the block id is below 256 and is exactly bits 15-8 of the address |
| Address.GetOffset | project3_cis415/smsa_driver.c:101 | the offset `addr & 0xff` is below 256, and with the upper 24 bits it rebuilds the address |
| Address.Compose | project3_cis415/smsa_driver.c:24-32 | placing an in-range drum, block and offset in their fields gives an address that the three decoders map back to those values |
| Address.Decomposition | project3_cis415/smsa_driver.c:24-32 | every address equals drum * 65536 + block * 256 + offset of its decoded fields |
| Address.FieldRanges | project3_cis415/smsa_driver.c:24-32 | as numbers, drum < 65536, block < 256 and offset < 256 |
| Address.GetOpCode | project3_cis415/smsa_driver.c:34-41 | when op < 64, drum < 16 and block < 2^22, bits 31-26, 25-22 and 21-0 of the word decode back to the three arguments |
| Address.WordFromFields | project3_cis415/smsa_driver.c:34-41 | every 32-bit word is the packing of its own three fields, so packing reaches every word |
| Address.WideDrumSpillsIntoOpcode | project3_cis415/smsa_driver.c:37-38 | a drum id with 16 <= drum < 1024 leaves only its low 4 bits as drum and ORs its bits above the fourth into the opcode, since no masking is done; higher bits would shift out of the word |
| Address.WideBlockSpillsIntoDrum | project3_cis415/smsa_driver.c:38-39 | a block id with 2^22 <= block < 2^26 keeps its low 22 bits as block and ORs its bits from the 22nd up into the drum field; higher bits would reach the opcode |
| Address.WordsCollide | project3_cis415/smsa_driver.c:34-41 | two different argument triples (op 0 with drum 16 vs op 1 with drum 0, and block 2^22 vs drum 1) give the same word |
| Schedule.FrameOf | project3_cis415/smsa_driver.c:98-101 | the first block and the offset taken from an address are both below 256 |
| Schedule.BoundsTestsAsWritten | project3_cis415/smsa_driver.c:105-114 | a pass goes ahead exactly when neither the C drum test (`drum < 0` or `drum > SMSA_DISK_ARRAY_SIZE`) nor the C block test (`block < 0` or `block > SMSA_MAX_BLOCK_ID`) fires |
| Schedule.CounterInBlock | project3_cis415/smsa_driver.c:115-124 | `counter` starts below 256, so `tmp[counter]` is in range, and is nonzero only on a pass that issues the seek pair |
| Schedule.NextAdvances | project3_cis415/smsa_driver.c:126-140 | each pass strictly increases `reader` without passing `len`, ends because the request or the block ran out, and leaves a block number in 1..256 when its own was in range |
| Schedule.Chunk | project3_cis415/smsa_driver.c:135-140 | the inner loop copies at least one byte, never runs past `len` or the end of `tmp`, and stops exactly when one of the two runs out, i.e. it copies min(len - reader, 256 - counter) bytes |
| Schedule.Walk | project3_cis415/smsa_driver.c:103-141 | the passes the loop makes are consecutive and all pass the bounds checks; the loop returns 0 exactly when `reader` reaches `len`, and -1 only when the position after the last pass fails a check |
| Schedule.WalkStep | project3_cis415/smsa_driver.c:103-141 | a pass that passes the checks with bytes left is the first pass of the loop, and the loop continues from its successor |
| Schedule.Reach | project3_cis415/smsa_driver.c:103-141 | the final value of `reader` lies between its starting value and `len` |
| Schedule.ReachIsPlanReader | project3_cis415/smsa_driver.c:103-141 | the final `reader` of the loop run pass by pass is that of the plan |
| ScheduleFacts.ChainIsConsecutive | project3_cis415/smsa_driver.c:126-133 | along the passes, the position read advances by exactly one block each pass in drum-major order, and block numbers stay in 1..256 after the first pass |
| ScheduleFacts.PassesReadConsecutiveBlocks | project3_cis415/smsa_driver.c:126-133 | pass k of a call reads the k-th block after the addressed one, rollovers included |
| ScheduleFacts.RevisitIndex | project3_cis415/smsa_driver.c:115-120 | after the first pass, the block number equals the first block exactly when the pass count is a nonzero multiple of 256 and the first block is not 0 |
| ScheduleFacts.SeekPairExactly | project3_cis415/smsa_driver.c:115-120 | SEEK_DRUM and SEEK_BLOCK are issued on pass k exactly when k is 0, or the first block is nonzero and k is a multiple of 256 |
| ScheduleFacts.AlignedPrefix | project3_cis415/smsa_driver.c:115-140 | before the first block number recurs, each pass copies the bytes whose virtual address is the address plus the buffer index, and pass k starts at buffer index 256k - offset |
| ScheduleFacts.ReaderAfterAlignedPasses | project3_cis415/smsa_driver.c:126-140 | pass k <= 256 starts at buffer index 256k - offset, at the k-th block after the first |
| ScheduleFacts.ChainWithinDrum | project3_cis415/smsa_driver.c:110-133 | when SMSA_MAX_BLOCK_ID < 256, passes that all pass the block check stay on the first pass's drum, pass k at block first + k |
| ScheduleFacts.AlignedWalk | project3_cis415/smsa_driver.c:115-140 | when `NoMisplacedWrap` holds, every pass copies the bytes at the virtual addresses matching the buffer indexes |
| ScheduleFacts.AlignedFromPlan | project3_cis415/smsa_driver.c:103-141 | alignment of every planned pass gives alignment of the loop run pass by pass, and both stop at the same `reader` |
| ScheduleFacts.AlignedFromStart | project3_cis415/smsa_driver.c:98-141 | under `NoMisplacedWrap`, a call is aligned to the byte address of its first byte from its first pass on |
| ScheduleFacts.AlignedPasses | project3_cis415/smsa_driver.c:98-140 | under `NoMisplacedWrap`, every planned pass of a call is aligned to the numeric value of `addr` |
| ScheduleFacts.StartAligned | project3_cis415/smsa_driver.c:98-141 | the same for the loop run pass by pass from the start of a call |
| ScheduleFacts.PlaceAligned | project3_cis415/smsa_driver.c:115-140 | when every pass from a position on is aligned to `a`, each buffer index i the loop reaches is copied to or from byte address a + i |
| ScheduleFacts.WrapWalk | project3_cis415/smsa_driver.c:115-133 | with a nonzero first block and offset and enough room, pass 256 exists, seeks again, and its first copied byte is `offset` past the address its buffer index corresponds to |
| ScheduleFacts.ShortChainContinues | project3_cis415/smsa_driver.c:103-133 | with more than 65536 - offset bytes requested, blocks up to 256 allowed and the next drum within the array, the loop variables after at most 256 passes still call for another pass that passes the checks |
| ScheduleFacts.DrumWrapReappliesOffset | project3_cis415/smsa_driver.c:115-133 | a call from an address with a nonzero first block and a nonzero offset, with SMSA_MAX_BLOCK_ID >= 256, the next drum within the array and len > 65536 - offset, makes pass 256; that pass seeks again and copies the bytes `offset` places past the address its buffer index corresponds to |
| ScheduleFacts.StartOutOfBounds | project3_cis415/smsa_driver.c:105-114 | a non-empty call whose starting drum or block fails a check returns -1 with no pass, hence no DISK_READ |
| ScheduleFacts.DrumEqualToArraySizeIsRead | project3_cis415/smsa_driver.c:105-109 | a drum equal to SMSA_DISK_ARRAY_SIZE passes the check, and that drum is read |
| ScheduleFacts.RolloverPastArraySizeIsRead | project3_cis415/smsa_driver.c:105-131 | a pass at block 256 of drum SMSA_DISK_ARRAY_SIZE passes both checks when SMSA_MAX_BLOCK_ID >= 256, rolls over and reads block 0 of drum SMSA_DISK_ARRAY_SIZE + 1, and the loop continues on that drum |
| ScheduleFacts.FirstPass | project3_cis415/smsa_driver.c:103-133 | a non-empty call that passes the checks makes its first pass at the decoded position, without rollover |
| ScheduleFacts.NoRolloverBelowBlockSize | project3_cis415/smsa_driver.c:110-131 | when SMSA_MAX_BLOCK_ID < 256, the block check fires before block 256, so no pass rolls over and pass k reads block first + k of the starting drum |
| ScheduleFacts.SingleDrumStatus | project3_cis415/smsa_driver.c:105-142 | when SMSA_MAX_BLOCK_ID < 256, a non-empty call returns 0 exactly when its drum passes the check and its last block (first block plus blocks spanned by offset + len) is within the limit |
| ScheduleFacts.StatusFromLastPass | project3_cis415/smsa_driver.c:105-142 | the same status law when at least one pass runs, derived from where the last pass ends |
| Run.Splice | project3_cis415/smsa_driver.c:135-140 | a splice keeps the length, replaces exactly the n target bytes with the source bytes in order, and keeps every other byte |
| Run.PassCommandShapes | project3_cis415/smsa_driver.c:115-133 | a pass issues SEEK_DRUM, SEEK_BLOCK, DISK_READ at its position on the first block number; SEEK_DRUM(drum+1), DISK_READ(drum+1, 0) on a rollover; and a bare DISK_READ otherwise |
| Run.ReadFrom | project3_cis415/smsa_driver.c:103-141 | the read loop leaves a buffer of the caller's buffer length |
| Run.WriteFrom | project3_cis415/smsa_driver.c:171-212 | the write loop never changes the caller's buffer |
| Run.WriteFromStep | project3_cis415/smsa_driver.c:171-212 | a write pass that passes the checks with bytes left is followed by the rest of the loop from the next position, on the device that pass left, and the final `reader` is the same |
| Run.ReadSpec | project3_cis415/smsa_driver.c:89-143 | `smsa_vread` returns 0 exactly when the loop's final `reader` is `len`, else -1, and the buffer keeps its length |
| Run.WriteSpec | project3_cis415/smsa_driver.c:155-214 | `smsa_vwrite` returns 0 exactly when the loop's final `reader` is `len`, else -1, and the caller's buffer is unchanged |
| Run.ReadFromStatus | project3_cis415/smsa_driver.c:103-142 | `smsa_vread` returns 0 exactly when `reader` reaches `len`, and -1 otherwise |
| Run.WriteFromStatus | project3_cis415/smsa_driver.c:171-213 | `smsa_vwrite` returns 0 exactly when `reader` reaches `len`, and -1 otherwise |
| Run.ReadFromKeepsRest | project3_cis415/smsa_driver.c:135-140 | a read changes only the buffer indexes between its starting `reader` and the final `reader` |
| Run.ReadKeepsRest | project3_cis415/smsa_driver.c:103-141 | after `smsa_vread`, every buffer byte at or past the final `reader` (so all of `buf[len..]`, and on -1 everything not yet copied) is as the caller left it |
| Run.RunRead | project3_cis415/smsa_driver.c:132-140 | running read passes keeps the buffer length |
| Run.ReadFromFollowsPlan | project3_cis415/smsa_driver.c:103-141 | running the read loop pass by pass gives the plan's status and the buffer, device and commands of running the planned passes |
| Run.WriteFromFollowsPlan | project3_cis415/smsa_driver.c:171-212 | the same for the write loop, with the caller's buffer unchanged |
| Run.ReadSpecFollowsPlan | project3_cis415/smsa_driver.c:89-143 | an `smsa_vread` call equals its plan run against the device |
| Run.WriteSpecFollowsPlan | project3_cis415/smsa_driver.c:155-214 | an `smsa_vwrite` call equals its plan run against the device |
| Run.ReadTraceIsPlanned | project3_cis415/smsa_driver.c:115-133 | the commands of running read passes are the concatenation of each pass's commands, whatever the device answers |
| Run.WriteTraceIsPlanned | project3_cis415/smsa_driver.c:184-211 | the same for write passes, with SEEK_BLOCK and DISK_WRITE after each read |
| Run.CommandsIndependentOfDevice | project3_cis415/smsa_driver.c:115-133 | the commands a call issues are those of its planned passes, so two devices with any answers and buffers receive the same commands |
| Driver.CopyToCaller | project3_cis415/smsa_driver.c:135-140 | the `smsa_vread` inner loop advances `reader` and `counter` together, stops when `len` or the block end is reached, and copies exactly `tmp[counter..]` into `buf[reader..]` |
| Driver.MergeIntoBlock | project3_cis415/smsa_driver.c:204-209 | the `smsa_vwrite` inner loop overwrites only `tmp[counter..counter+n)` with `buf[reader..reader+n)` and leaves the rest of `tmp` as read |
| Driver.Position | project3_cis415/smsa_driver.c:115-131 | after the checks, `counter`, `drum` and `block` become the pass's start counter and target position, and the device has received the seek pair and rollover seek due |
| Driver.ReadPass | project3_cis415/smsa_driver.c:115-140 | one read pass moves the loop variables to the next pass and leaves the device and buffer as the pass-by-pass read describes |
| Driver.WritePass | project3_cis415/smsa_driver.c:184-211 | one write pass moves the loop variables to the next pass and leaves the device as the pass-by-pass write describes |
| Driver.VRead | project3_cis415/smsa_driver.c:89-143 | `smsa_vread` returns 0 with nothing issued and the buffer unchanged when len is 0, and in all cases returns the status and leaves the buffer, device and command trace that `ReadSpec` gives |
| Driver.VWrite | project3_cis415/smsa_driver.c:155-214 | `smsa_vwrite` returns 0 with nothing issued when len is 0, and in all cases returns the status and leaves the device and command trace that `WriteSpec` gives |
| Driver.VMount | project3_cis415/smsa_driver.c:50-59 | MOUNT is always issued; FORMAT_DRUM follows exactly when MOUNT succeeded; the result is 0 exactly when MOUNT's status is non-negative, else -1; the device ends in the state after MOUNT, then after FORMAT_DRUM when MOUNT succeeded |
| Driver.VUnmount | project3_cis415/smsa_driver.c:69-77 | UNMOUNT is issued once, the result is 0 exactly when its status is non-negative, else -1, and the device ends in the state UNMOUNT leaves |
| SimDisk.PositionedOnTarget | project3_cis415/smsa_driver.c:115-131 | after a pass's seeks, the head is on the block the pass reads, provided the pass seeks or the previous pass left the head there |
| SimDisk.ReadPassOnDisk | project3_cis415/smsa_driver.c:115-133 | a read pass receives the block at its target position, leaves the disk unchanged and leaves the head on the next pass's block |
| SimDisk.ReadPassBytes | project3_cis415/smsa_driver.c:132-140 | an aligned read pass fills buffer index i with the disk byte at address a + i across its chunk, and leaves other indexes alone |
| SimDisk.ReadFromDisk | project3_cis415/smsa_driver.c:103-141 | from any pass on, aligned reads fill every index they reach with the disk byte at the matching address, and keep the disk |
| SimDisk.WritePassOnDisk | project3_cis415/smsa_driver.c:184-211 | a write pass stores the merged block at the block it read, and leaves the head on the next pass's block |
| SimDisk.WritePassBytes | project3_cis415/smsa_driver.c:201-211 | an aligned write pass changes exactly the disk bytes of its chunk, to the caller's bytes at the matching indexes |
| SimDisk.StoreSpliced | project3_cis415/smsa_driver.c:204-211 | writing back a block read from the disk with n bytes merged changes exactly those n disk bytes |
| SimDisk.WriteFromDisk | project3_cis415/smsa_driver.c:171-212 | from any pass on, each disk address holds afterwards the buffer byte aligned with it when the remaining passes reach it, and its old byte otherwise |
| SimDisk.ReadFromStart | project3_cis415/smsa_driver.c:98-141 | under `NoMisplacedWrap`, a read fills buffer index i with the disk byte at the first address plus i, for every index reached, and keeps the disk |
| SimDisk.WriteFromStart | project3_cis415/smsa_driver.c:166-212 | under `NoMisplacedWrap`, after a write any disk address in the reached range from the first address holds the matching buffer byte, and any other keeps its old byte |
| SimDisk.ReadLinear | project3_cis415/smsa_driver.c:89-143 | under `NoMisplacedWrap`, `smsa_vread` returns 0 exactly when all bytes are read; `buf[i]` is the disk byte at addr + i for each index reached; the rest of the buffer and the disk are unchanged |
| SimDisk.WriteLinear | project3_cis415/smsa_driver.c:155-214 | under `NoMisplacedWrap`, `smsa_vwrite` returns 0 exactly when all bytes are written; at any disk address x, x holds buffer byte x - addr when that index was reached, and its old byte otherwise |
| SimDisk.WriteThenRead | project3_cis415/smsa_driver.c:155-214 | for every address and length, a successful `smsa_vwrite` followed by an `smsa_vread` of the same address and length succeeds and returns the bytes written, drum wraps included |
| SimDisk.ReadBackByte | project3_cis415/smsa_driver.c:89-214 | for every address and length, after `smsa_vwrite`, `smsa_vread` of the same address and length returns, at each index the loops reach, the byte written there |
| SimDisk.ReadFromPlaces | project3_cis415/smsa_driver.c:103-141 | from any pass on, a read fills each buffer index it reaches with the disk byte at the place `PlaceFrom` gives that index |
| SimDisk.ReadPassAt | project3_cis415/smsa_driver.c:132-140 | one read pass fills each index i of its chunk with the disk byte `counter + (i - reader)` of the block it reads |
| SimDisk.WriteFromPlaces | project3_cis415/smsa_driver.c:171-212 | from any pass on, after a write the place `PlaceFrom` gives each reached buffer index holds the caller's byte at that index |
| SimDisk.WriteInChunk | project3_cis415/smsa_driver.c:184-212 | after a write, byte `counter + (i - reader)` of the block a pass writes holds the caller's byte i, for each index i of that pass's chunk |
| SimDisk.WritePassAt | project3_cis415/smsa_driver.c:201-211 | one write pass puts the caller's byte i at byte `counter + (i - reader)` of the block it writes, inside that block |
| SimDisk.StoreMerged | project3_cis415/smsa_driver.c:204-211 | writing back the merged `tmp` at the block read puts the caller's byte i at byte `counter + (i - reader)` of that block |
| SimDisk.WritePassHead | project3_cis415/smsa_driver.c:184-211 | after a write pass the head is on the block the next pass reads |
| SimDisk.WrittenInPass | project3_cis415/smsa_driver.c:171-212 | the passes after a write pass leave every byte of the block it wrote, and below, as that pass left it |
| SimDisk.NextBlockAbove | project3_cis415/smsa_driver.c:126-133 | the block a pass reads or writes lies wholly below the position of the next pass, and the next block number stays at most 256 |
| SimDisk.WriteFromKeepsBelow | project3_cis415/smsa_driver.c:171-212 | a write from any pass on leaves every disk byte below that pass's block unchanged |
| SimDisk.ReadBackAt | project3_cis415/smsa_driver.c:98-212 | when every pass is aligned to `a`, at each reached disk address x the read-back buffer byte x - a is the written byte x - a |
| SimDisk.WrittenAt | project3_cis415/smsa_driver.c:166-212 | when every pass is aligned to `a`, after a write a reached disk address x holds buffer byte x - a |
| SimDisk.ReadAt | project3_cis415/smsa_driver.c:98-141 | when every pass is aligned to `a`, after a read buffer byte x - a is the disk byte at a reached address x |
| Scenarios.UnalignedWriteAcrossBlocks | project3_cis415/smsa_driver.c:166-211 | writing 100 bytes at address 200 returns 0 and issues SEEK_DRUM 0, SEEK_BLOCK 0, DISK_READ (0,0), SEEK_BLOCK 0, DISK_WRITE (0,1), DISK_READ (0,1), SEEK_BLOCK 1, DISK_WRITE (0,2) on any device |
| Scenarios.ReadPastLastBlock | project3_cis415/smsa_driver.c:110-114 | reading at block 5 with SMSA_MAX_BLOCK_ID 4 returns -1 with no command issued and the buffer and device untouched |
| Scenarios.ReadRollsPastLastDrum | project3_cis415/smsa_driver.c:103-141 | with SMSA_DISK_ARRAY_SIZE 0 and SMSA_MAX_BLOCK_ID 300, reading 300 bytes at 0xFF00 returns 0 and issues SEEK_DRUM 0, SEEK_BLOCK 255, DISK_READ (0,255), SEEK_DRUM 1, DISK_READ (1,0), so drum 1 is read |

## Left out

- `project1_cis415/myShell.c` is not part of this model. It is process control and signal handling, unrelated to the driver.
- The SMSA device behind `smsa_operation`, including its seek and latency behaviour. Its implementation is not part of this model.
  - The driver is modelled against an arbitrary step function.
  - `SimDisk` is a reference disk that states the assumption the loops rely on between passes: DISK_READ and DISK_WRITE act at the head and advance it one block. It is not the simulator.
  - The drum and block carried by DISK_READ and DISK_WRITE are recorded in the trace but ignored by `SimDisk`.
- The statuses of the device calls inside the loops and of FORMAT_DRUM. The driver ignores them, and so does the model.
- `logMessage` calls are left out. They are logging side effects only.
- `smsa_driver.h` and `cmpsc311_log.h` are not part of this model.
  - `SMSA_DISK_ARRAY_SIZE` and `SMSA_MAX_BLOCK_ID` are parameters (`Schedule.Config`).
  - `SMSA_BLOCK_SIZE` is fixed at 256, the size the address layout's 8-bit offset and the comment at line 126 give it.
  - The opcode values are kept symbolic: a command is recorded as the `getOPCode` argument triple, and the packing itself is `Address.GetOpCode`.
- C integer quirks are not modelled:
  - `operationCode << 26` and `drumIdentifier << 22` on signed `int` are modelled as 32-bit unsigned shifts. A shift that overflows `int` is undefined behaviour.
  - The `drum < 0` and `block < 0` tests can never fire. They are kept only in `Schedule.BoundsTestFires`, the tests as written, which `Schedule.BoundsTestsAsWritten` shows equivalent to the model's check.
  - `drum++` past the 32-bit range is not modelled, since drums come from 16 bits and are bounded by the drum check.
- The caller's buffer is a value (`seq<bv8>`) returned from the call, not an array the call writes in place. A `buf` shorter than `len` is excluded by a precondition, since in C it is undefined behaviour.
- Address.Decomposition: states the decomposition as a `bv32` identity, not as an equation on unbounded integers. The integer view (`ScheduleFacts.ByteAddress`) is built from the decoded fields.
- SimDisk.ReadLinear: assumes `ScheduleFacts.NoMisplacedWrap`. The offset is re-applied only at pass 256, when the block number comes back to a nonzero first block. That pass needs `SMSA_MAX_BLOCK_ID` of 256 or more, a nonzero offset and more than 65536 - offset bytes, and then bytes land `offset` places off (`ScheduleFacts.DrumWrapReappliesOffset`), so no linear law holds. The condition is stronger than needed when the drum check ends the call before pass 256. The reference disk also takes the drum id as an unbounded number, not through the 4-bit drum field of the command word. Drum ids of 16 or more, which the packed word truncates (`Address.WideDrumSpillsIntoOpcode`), are distinct drums here, including a drum equal to `SMSA_DISK_ARRAY_SIZE` when that is 16.
- SimDisk.WriteLinear: assumes `ScheduleFacts.NoMisplacedWrap` and takes drum ids unpacked, for the same reasons.
- SimDisk.WriteThenRead: takes drum ids unpacked, like `SimDisk.ReadLinear`. Drum ids that the 4-bit field of the command word would truncate are distinct drums here.
- SimDisk.DiskStep is the reference disk's step, not code from the repository. Its behaviour is the assumption listed above, so it has no contract of its own.
- Driver.VRead: `reader` is a signed `int` (lines 97 and 103), so `len` above 2^31 - 1 overflows it, which is undefined behaviour in C. The model counts `reader` as an unbounded number up to `len`.
- Driver.VWrite: the same signed `reader` overflow (lines 162 and 171) is not modelled.
- ScheduleFacts.SingleDrumStatus: covers only `SMSA_MAX_BLOCK_ID < 256`. Above that, rollovers make the status depend on later drums, which `Schedule.Walk` covers in general.

=== FILE: address.dfy ===
/** The SMSA virtual address layout and the device command word.

    A virtual address is a 32-bit word: bits 31-16 name the drum, bits 15-8 the
    block within the drum and bits 7-0 the byte within the block.  A command word
    carries a 6-bit opcode in bits 31-26, a 4-bit drum id in bits 25-22 and a
    22-bit block id in bits 21-0.

    The C code builds the command word from `int` arguments with `<<` on `int`;
    for the in-range values the driver uses this coincides with the 32-bit
    unsigned shift modelled here (a shift that overflows a signed `int` is
    undefined behaviour in C and is not modelled).
 */
module Address {

  /** Drum id: the address shifted right by 16 bits. */
  function GetDrum(addr: bv32): (d: bv32)
    ensures d < 0x1_0000
    ensures (d << 16) | (addr & 0xffff) == addr
  {
    addr >> 16
  }

  /** Block id: bits 15-8 of the address. */
  function GetBlock(addr: bv32): (b: bv32)
    ensures b < 0x100
    ensures b << 8 == addr & 0xff00
  {
    (addr & 0xff00) >> 8
  }

  /** Byte offset inside the block: `addr & 0xff` in the driver. */
  function GetOffset(addr: bv32): (o: bv32)
    ensures o < 0x100
    ensures (addr & 0xffff_ff00) | o == addr
  {
    addr & 0xff
  }

  /** The inverse of the three decoders: place a drum, block and offset in their fields. */
  function Compose(drum: bv32, block: bv32, offset: bv32): (addr: bv32)
    requires drum < 0x1_0000 && block < 0x100 && offset < 0x100
    ensures GetDrum(addr) == drum && GetBlock(addr) == block && GetOffset(addr) == offset
  {
    (drum << 16) | (block << 8) | offset
  }

  /** Every address is the composition of its three fields, both as a bitwise
      union and as a 32-bit sum `drum * 65536 + block * 256 + offset`. */
  lemma Decomposition(addr: bv32)
    ensures Compose(GetDrum(addr), GetBlock(addr), GetOffset(addr)) == addr
    ensures GetDrum(addr) * 0x1_0000 + GetBlock(addr) * 0x100 + GetOffset(addr) == addr
  {
  }

  /** The decoded fields as natural numbers, with their ranges. */
  lemma FieldRanges(addr: bv32)
    ensures GetDrum(addr) as nat < 0x1_0000
    ensures GetBlock(addr) as nat < 0x100
    ensures GetOffset(addr) as nat < 0x100
  {
  }

  // ---------------------------------------------------------------------------
  // Command words

  /** `getOPCode`: opcode in bits 31-26, drum id from bit 22 up, block id from
      bit 0 up.  No field is masked, so an argument wider than its field spills
      into the field above it. */
  function GetOpCode(op: bv32, drum: bv32, block: bv32): (w: bv32)
    ensures op < 0x40 && drum < 0x10 && block < 0x40_0000 ==>
              OpField(w) == op && DrumField(w) == drum && BlockField(w) == block
  {
    (op << 26) | (drum << 22) | block
  }

  function OpField(w: bv32): bv32 { w >> 26 }

  function DrumField(w: bv32): bv32 { (w >> 22) & 0xf }

  function BlockField(w: bv32): bv32 { w & 0x3f_ffff }

  /** Every 32-bit word is the encoding of the fields read back from it. */
  lemma WordFromFields(w: bv32)
    ensures GetOpCode(OpField(w), DrumField(w), BlockField(w)) == w
  {
  }

  /** A drum id from 16 to 1023 is not confined to its field: its bits above
      the fourth are or-ed into the opcode field, and only its low four bits
      remain as drum id.  (Bits from the tenth up would shift out of the word.) */
  lemma WideDrumSpillsIntoOpcode(op: bv32, drum: bv32, block: bv32)
    requires op < 0x40 && 0x10 <= drum < 0x400 && block < 0x40_0000
    ensures DrumField(GetOpCode(op, drum, block)) == drum & 0xf
    ensures OpField(GetOpCode(op, drum, block)) == op | (drum >> 4)
  {
  }

  /** Two different argument triples that yield the same command word. */
  lemma WordsCollide()
    ensures GetOpCode(0, 0x10, 0) == GetOpCode(1, 0, 0)
    ensures GetOpCode(0, 0, 0x40_0000) == GetOpCode(0, 1, 0)
  {
  }

  /** A block id from 2^22 to 2^26 - 1 spills into the drum field; bits from
      the 26th up would reach the opcode field. */
  lemma WideBlockSpillsIntoDrum(op: bv32, drum: bv32, block: bv32)
    requires op < 0x40 && drum < 0x10 && 0x40_0000 <= block < 0x400_0000
    ensures BlockField(GetOpCode(op, drum, block)) == block & 0x3f_ffff
    ensures DrumField(GetOpCode(op, drum, block)) == drum | (block >> 22)
  {
  }
}

=== FILE: device.dfy ===
/** The boundary between the driver and the SMSA device.

    The driver talks to the device only through `smsa_operation(word, buffer)`.
    Here a command is kept as the triple of arguments the driver hands to
    `getOPCode` (see `Address.GetOpCode` for how the triple is packed into the
    word), and the device is any state `D` together with a step function.  The
    step receives the command and, for DISK_WRITE, the staged block; it returns
    the next device state, a status and, for DISK_READ, the block that fills the
    driver's staging buffer.
 */
module Device {

  /** `SMSA_BLOCK_SIZE`: bytes per block.  The address layout gives the offset
      eight bits, so the block size is 256. */
  const BLOCK_SIZE: nat := 256

  /** The driver's `tmp[SMSA_BLOCK_SIZE]` staging buffer. */
  type Block = s: seq<bv8> | |s| == BLOCK_SIZE witness seq(256, _ => 0)

  /** The `SMSA_*` opcodes the driver issues. */
  datatype Op = Mount | Unmount | FormatDrum | SeekDrum | SeekBlock | DiskRead | DiskWrite

  /** The arguments of one `getOPCode(op, drum, block)` call. */
  datatype Command = Command(op: Op, drum: nat, block: nat)

  datatype Option<T> = None | Some(value: T)

  /** What one `smsa_operation` call yields. */
  datatype Reply<D> = Reply(next: D, status: int, data: Block)

  /** An abstract device: its state and one step per command. */
  type Step<!D> = (D, Command, Option<Block>) -> Reply<D>

  /** `getOPCode(SMSA_SEEK_DRUM, drum, 0)` */
  function SeekDrumCmd(drum: nat): Command { Command(SeekDrum, drum, 0) }

  /** `getOPCode(SMSA_SEEK_BLOCK, 0, block)` */
  function SeekBlockCmd(block: nat): Command { Command(SeekBlock, 0, block) }

  /** `getOPCode(SMSA_DISK_READ, drum, block)` */
  function ReadCmd(drum: nat, block: nat): Command { Command(DiskRead, drum, block) }

  /** `getOPCode(SMSA_DISK_WRITE, drum, block)` */
  function WriteCmd(drum: nat, block: nat): Command { Command(DiskWrite, drum, block) }
}

=== FILE: disk.dfy ===
/** A reference disk for stating what reads and writes do to data.

    The SMSA device itself is not part of this model.  `SimDisk` is the
    simplest device the driver's command sequences are written for: a byte
    memory addressed in drum-major order and a head position.  SEEK_DRUM moves
    the head to block 0 of a drum, SEEK_BLOCK to a block of the current drum,
    and DISK_READ and DISK_WRITE transfer the block under the head and advance
    the head by one block.  The drum and block carried in a DISK_READ or
    DISK_WRITE command are not used: the driver relies on the head position,
    and the lemmas below show it has always put the head on the block it names.
 */
module SimDisk {
  import opened Device
  import opened Schedule
  import opened ScheduleFacts
  import opened Run

  datatype Disk = Disk(mem: nat -> bv8, drum: nat, block: nat)

  /** First byte address of the block under the head. */
  function HeadBase(d: Disk): nat
  {
    (d.drum * BLOCK_SIZE + d.block) * BLOCK_SIZE
  }

  /** The block of `mem` that starts at byte address `base`. */
  function BlockAt(mem: nat -> bv8, base: nat): (b: Block)
    ensures forall j :: 0 <= j < BLOCK_SIZE ==> b[j] == mem(base + j)
  {
    seq(BLOCK_SIZE, j requires 0 <= j => mem(base + j))
  }

  /** `mem` with the block starting at `base` replaced by `blk`. */
  function Store(mem: nat -> bv8, base: nat, blk: Block): (m: nat -> bv8)
    ensures forall a: nat :: m(a) == if base <= a < base + BLOCK_SIZE then blk[a - base] else mem(a)
  {
    (a: nat) => if base <= a < base + BLOCK_SIZE then blk[a - base] else mem(a)
  }

  /** What a command other than DISK_READ hands back in the buffer. */
  function Zeros(): Block { seq(BLOCK_SIZE, _ => 0) }

  function DiskStep(d: Disk, cmd: Command, payload: Option<Block>): Reply<Disk>
  {
    match cmd.op
    case SeekDrum => Reply(Disk(d.mem, cmd.drum, 0), 0, Zeros())
    case SeekBlock => Reply(Disk(d.mem, d.drum, cmd.block), 0, Zeros())
    case DiskRead => Reply(Disk(d.mem, d.drum, d.block + 1), 0, BlockAt(d.mem, HeadBase(d)))
    case DiskWrite =>
      if payload.Some? then Reply(Disk(Store(d.mem, HeadBase(d), payload.value), d.drum, d.block + 1), 0, Zeros())
      else Reply(d, -1, Zeros())
    case _ => Reply(d, 0, Zeros())
  }

  predicate HeadAt(d: Disk, c: Cursor)
  {
    d.drum == c.drum && d.block == c.block
  }

  /** After the seeks of a pass the head is on the block the pass reads,
      provided it was left at the pass's position or the pass seeks. */
  lemma PositionedOnTarget(d: Disk, fr: Frame, c: Cursor)
    requires SeekPair(fr, c) || HeadAt(d, c)
    ensures Positioned(DiskStep, d, fr, c).drum == TargetDrum(c)
    ensures Positioned(DiskStep, d, fr, c).block == TargetBlock(c)
    ensures Positioned(DiskStep, d, fr, c).mem == d.mem
    ensures HeadBase(Positioned(DiskStep, d, fr, c)) == TargetLin(c) * BLOCK_SIZE
  {
  }

  /** One read pass reads the block it targets and leaves the head on the
      position of the next pass. */
  lemma ReadPassOnDisk(d: Disk, fr: Frame, c: Cursor)
    requires ValidFrame(fr) && c.reader < fr.len
    requires SeekPair(fr, c) || HeadAt(d, c)
    ensures PassRead(DiskStep, d, fr, c).data == BlockAt(d.mem, TargetLin(c) * BLOCK_SIZE)
    ensures PassRead(DiskStep, d, fr, c).next.mem == d.mem
    ensures HeadAt(PassRead(DiskStep, d, fr, c).next, Next(fr, c))
  {
    PositionedOnTarget(d, fr, c);
  }

  /** The bytes one aligned read pass copies: the caller's buffer receives the
      disk bytes at `a + i` for the chunk's indexes `i`. */
  lemma ReadPassBytes(d: Disk, fr: Frame, c: Cursor, buf: seq<bv8>, a: nat)
    requires ValidFrame(fr) && c.reader < fr.len <= |buf|
    requires SeekPair(fr, c) || HeadAt(d, c)
    requires Aligned(fr, a, c)
    ensures PassRead(DiskStep, d, fr, c).next.mem == d.mem
    ensures HeadAt(PassRead(DiskStep, d, fr, c).next, Next(fr, c))
    ensures forall i :: 0 <= i < |buf| ==>
              PassOut(DiskStep, d, fr, c, buf)[i]
                == if c.reader <= i < c.reader + Chunk(fr, c) then d.mem(a + i) else buf[i]
  {
    ReadPassOnDisk(d, fr, c);
    var reply := PassRead(DiskStep, d, fr, c);
    var out1 := PassOut(DiskStep, d, fr, c, buf);
    forall i | 0 <= i < |buf|
      ensures out1[i] == if c.reader <= i < c.reader + Chunk(fr, c) then d.mem(a + i) else buf[i]
    {
      if c.reader <= i < c.reader + Chunk(fr, c) {
        assert out1[i] == reply.data[Counter(fr, c) + i - c.reader];
      }
    }
  }

  /** From cursor `c` on, with every pass aligned to byte address `a`, a read
      fills the buffer indexes it reaches with the disk bytes at `a + index`
      and leaves the disk unchanged. */
  lemma {:induction false} ReadFromDisk(cfg: Config, fr: Frame, c: Cursor, d: Disk, buf: seq<bv8>, a: nat)
    requires ValidFrame(fr) && c.reader <= fr.len <= |buf|
    requires AlignedFrom(cfg, fr, c, a)
    requires SeekPair(fr, c) || HeadAt(d, c)
    ensures ReadFrom(cfg, DiskStep, fr, c, d, buf).dev.mem == d.mem
    ensures forall i :: 0 <= i < |buf| ==>
              ReadFrom(cfg, DiskStep, fr, c, d, buf).buf[i]
                == if c.reader <= i < Reach(cfg, fr, c) then d.mem(a + i) else buf[i]
    decreases fr.len - c.reader
  {
    if c.reader < fr.len && InBounds(cfg, c) {
      ReadPassBytes(d, fr, c, buf, a);
      ReadFromDisk(cfg, fr, Next(fr, c), PassRead(DiskStep, d, fr, c).next, PassOut(DiskStep, d, fr, c, buf), a);
    }
  }

  /** One write pass: the head is on the target block for the read, again for
      the write, and afterwards on the position of the next pass. */
  lemma WritePassOnDisk(d: Disk, fr: Frame, c: Cursor, buf: seq<bv8>)
    requires ValidFrame(fr) && c.reader < fr.len <= |buf|
    requires SeekPair(fr, c) || HeadAt(d, c)
    ensures var reply := PassRead(DiskStep, d, fr, c);
            PassWrite(DiskStep, d, fr, c, buf).mem
              == Store(d.mem, TargetLin(c) * BLOCK_SIZE, Merged(fr, c, reply.data, buf))
    ensures PassRead(DiskStep, d, fr, c).data == BlockAt(d.mem, TargetLin(c) * BLOCK_SIZE)
    ensures HeadAt(PassWrite(DiskStep, d, fr, c, buf), Next(fr, c))
  {
    ReadPassOnDisk(d, fr, c);
  }

  /** After one write pass the head is on the position of the next pass. */
  lemma {:induction false} WritePassHead(d: Disk, fr: Frame, c: Cursor, buf: seq<bv8>)
    requires ValidFrame(fr) && c.reader < fr.len <= |buf|
    requires SeekPair(fr, c) || HeadAt(d, c)
    ensures HeadAt(PassWrite(DiskStep, d, fr, c, buf), Next(fr, c))
  {
    WritePassOnDisk(d, fr, c, buf);
  }

  /** The bytes one aligned write pass changes: the chunk at `a + reader`
      receives the caller's bytes from index `reader` on. */
  lemma WritePassBytes(d: Disk, fr: Frame, c: Cursor, buf: seq<bv8>, a: nat)
    requires ValidFrame(fr) && c.reader < fr.len <= |buf|
    requires SeekPair(fr, c) || HeadAt(d, c)
    requires Aligned(fr, a, c)
    ensures HeadAt(PassWrite(DiskStep, d, fr, c, buf), Next(fr, c))
    ensures forall x: nat ::
              PassWrite(DiskStep, d, fr, c, buf).mem(x)
                == if a + c.reader <= x < a + c.reader + Chunk(fr, c) then buf[x - a] else d.mem(x)
  {
    WritePassOnDisk(d, fr, c, buf);
    var reply := PassRead(DiskStep, d, fr, c);
    StoreSpliced(d.mem, TargetLin(c) * BLOCK_SIZE, Counter(fr, c), Chunk(fr, c), buf, c.reader, a);
  }

  /** Storing a block read from `mem` with `n` bytes from `lo` on replaced by
      `buf[r ..]` changes exactly the `n` bytes from `base + lo`. */
  lemma StoreSpliced(mem: nat -> bv8, base: nat, lo: nat, n: nat, buf: seq<bv8>, r: nat, a: nat)
    requires lo + n <= BLOCK_SIZE && r + n <= |buf| && base + lo == a + r
    ensures forall x: nat ::
              Store(mem, base, Splice(BlockAt(mem, base), lo, buf, r, n))(x)
                == if a + r <= x < a + r + n then buf[x - a] else mem(x)
  {
    var tmp := Splice(BlockAt(mem, base), lo, buf, r, n);
    forall x: nat
      ensures Store(mem, base, tmp)(x) == if a + r <= x < a + r + n then buf[x - a] else mem(x)
    {
      if base <= x < base + BLOCK_SIZE {
        assert tmp[x - base] == if lo <= x - base < lo + n then buf[r + x - base - lo] else mem(x);
      }
    }
  }

  /** From cursor `c` on, with every pass aligned to byte address `a`, a write
      leaves at disk address `x` the caller's byte `x - a` when that index is
      one it reaches, and the old disk byte otherwise. */
  lemma {:induction false} WriteFromDisk(cfg: Config, fr: Frame, c: Cursor, d: Disk, buf: seq<bv8>, a: nat, x: nat)
    requires ValidFrame(fr) && c.reader <= fr.len <= |buf|
    requires AlignedFrom(cfg, fr, c, a)
    requires SeekPair(fr, c) || HeadAt(d, c)
    ensures WriteFrom(cfg, DiskStep, fr, c, d, buf).dev.mem(x)
              == if a + c.reader <= x < a + Reach(cfg, fr, c) then buf[x - a] else d.mem(x)
    decreases fr.len - c.reader
  {
    if c.reader < fr.len && InBounds(cfg, c) {
      var d1 := PassWrite(DiskStep, d, fr, c, buf);
      WritePassBytes(d, fr, c, buf, a);
      assert d1.mem(x) == if a + c.reader <= x < a + c.reader + Chunk(fr, c) then buf[x - a] else d.mem(x);
      WriteFromStep(cfg, DiskStep, fr, c, d, buf);
      WriteFromDisk(cfg, fr, Next(fr, c), d1, buf, a, x);
    }
  }

  /** The read from the first pass on, aligned to the byte address `a` of its
      first byte; the alignment of every pass is
      `ScheduleFacts.AlignedFromStart`. */
  lemma ReadFromStart(cfg: Config, fr: Frame, st: Cursor, d: Disk, buf: seq<bv8>, a: nat)
    requires Initial(fr, st) && fr.len <= |buf| && a == Lin(st) * BLOCK_SIZE + fr.bitDiff
    requires NoMisplacedWrap(cfg, fr)
    ensures ReadFrom(cfg, DiskStep, fr, st, d, buf).dev.mem == d.mem
    ensures forall i :: 0 <= i < |buf| ==>
              ReadFrom(cfg, DiskStep, fr, st, d, buf).buf[i]
                == if i < Reach(cfg, fr, st) then d.mem(a + i) else buf[i]
  {
    AlignedFromStart(cfg, fr, st);
    ReadFromDisk(cfg, fr, st, d, buf, a);
  }

  /** The write from the first pass on, at one disk address `x`: under the same
      condition, `x` holds the caller's byte `x - a` when that index was
      reached, and its old byte otherwise. */
  lemma WriteFromStart(cfg: Config, fr: Frame, st: Cursor, d: Disk, buf: seq<bv8>, a: nat, x: nat)
    requires Initial(fr, st) && fr.len <= |buf| && a == Lin(st) * BLOCK_SIZE + fr.bitDiff
    requires NoMisplacedWrap(cfg, fr)
    ensures WriteFrom(cfg, DiskStep, fr, st, d, buf).dev.mem(x)
              == if a <= x < a + Reach(cfg, fr, st) then buf[x - a] else d.mem(x)
  {
    AlignedFromStart(cfg, fr, st);
    WriteFromDisk(cfg, fr, st, d, buf, a, x);
  }

  // ---------------------------------------------------------------------------
  // Whole calls

  /** `smsa_vread` on the reference disk: when the transfer does not wrap a
      whole drum back to its first block number, the caller's byte `i` is the
      disk byte at `addr + i` for every index the loop reached (all of
      `[0, len)` when it returns 0), the rest of the buffer is untouched and the
      disk is unchanged. */
  lemma ReadLinear(cfg: Config, d: Disk, addr: bv32, len: nat, buf: seq<bv8>)
    requires len <= |buf| && NoMisplacedWrap(cfg, FrameOf(addr, len))
    ensures |ReadSpec(cfg, DiskStep, d, addr, len, buf).buf| == |buf|
    ensures ReadSpec(cfg, DiskStep, d, addr, len, buf).dev.mem == d.mem
    ensures ReadSpec(cfg, DiskStep, d, addr, len, buf).status == 0 <==> Reach(cfg, FrameOf(addr, len), Start(addr)) == len
    ensures forall i :: 0 <= i < |buf| ==>
              ReadSpec(cfg, DiskStep, d, addr, len, buf).buf[i]
                == if i < Reach(cfg, FrameOf(addr, len), Start(addr)) then d.mem(ByteAddress(addr) + i) else buf[i]
  {
    ReadFromStart(cfg, FrameOf(addr, len), Start(addr), d, buf, ByteAddress(addr));
  }

  /** `smsa_vwrite` on the reference disk, at any disk address `x`: under the
      same condition, disk byte `addr + i` becomes the caller's byte `i` for
      every index the loop reached, and every other disk byte keeps its value. */
  lemma WriteLinear(cfg: Config, d: Disk, addr: bv32, len: nat, buf: seq<bv8>, x: nat)
    requires len <= |buf| && NoMisplacedWrap(cfg, FrameOf(addr, len))
    ensures WriteSpec(cfg, DiskStep, d, addr, len, buf).status == 0 <==> Reach(cfg, FrameOf(addr, len), Start(addr)) == len
    ensures WriteSpec(cfg, DiskStep, d, addr, len, buf).dev.mem(x)
              == if ByteAddress(addr) <= x < ByteAddress(addr) + Reach(cfg, FrameOf(addr, len), Start(addr))
                 then buf[x - ByteAddress(addr)] else d.mem(x)
  {
    WriteFromStart(cfg, FrameOf(addr, len), Start(addr), d, buf, ByteAddress(addr), x);
  }

  // ---------------------------------------------------------------------------
  // Reading back, at any length

  /** Reading back what was written: a successful `smsa_vwrite` followed by an
      `smsa_vread` of the same address and length returns the bytes written.
      Both calls run the same passes, so even the bytes a re-applied offset
      puts out of place are read back from where they were written. */
  lemma WriteThenRead(cfg: Config, d: Disk, addr: bv32, len: nat, data: seq<bv8>, buf: seq<bv8>)
    requires len <= |data| && len <= |buf|
    requires WriteSpec(cfg, DiskStep, d, addr, len, data).status == 0
    ensures ReadSpec(cfg, DiskStep, WriteSpec(cfg, DiskStep, d, addr, len, data).dev, addr, len, buf).status == 0
    ensures ReadSpec(cfg, DiskStep, WriteSpec(cfg, DiskStep, d, addr, len, data).dev, addr, len, buf).buf[..len] == data[..len]
  {
    forall i | 0 <= i < len
      ensures ReadSpec(cfg, DiskStep, WriteSpec(cfg, DiskStep, d, addr, len, data).dev, addr, len, buf).buf[i] == data[i]
    {
      ReadBackByte(cfg, d, addr, len, data, buf, i);
    }
    SamePrefix(ReadSpec(cfg, DiskStep, WriteSpec(cfg, DiskStep, d, addr, len, data).dev, addr, len, buf).buf, data, len);
  }

  /** One byte of `WriteThenRead`: byte `i` read back is byte `i` written, for
      every index the loops reach. */
  lemma ReadBackByte(cfg: Config, d: Disk, addr: bv32, len: nat, data: seq<bv8>, buf: seq<bv8>, i: nat)
    requires len <= |data| && len <= |buf|
    requires i < Reach(cfg, FrameOf(addr, len), Start(addr))
    ensures ReadSpec(cfg, DiskStep, WriteSpec(cfg, DiskStep, d, addr, len, data).dev, addr, len, buf).buf[i] == data[i]
  {
    Address.FieldRanges(addr);
    WriteFromPlaces(cfg, FrameOf(addr, len), Start(addr), d, data, i);
    ReadFromPlaces(cfg, FrameOf(addr, len), Start(addr), WriteSpec(cfg, DiskStep, d, addr, len, data).dev, buf, i);
  }

  /** From cursor `c` on, a read puts into every reached index `i` the disk
      byte at `PlaceFrom(.., i)`. */
  lemma {:induction false} ReadFromPlaces(cfg: Config, fr: Frame, c: Cursor, d: Disk, buf: seq<bv8>, i: nat)
    requires ValidFrame(fr) && c.reader <= fr.len <= |buf|
    requires SeekPair(fr, c) || HeadAt(d, c)
    requires c.reader <= i < Reach(cfg, fr, c)
    ensures ReadFrom(cfg, DiskStep, fr, c, d, buf).buf[i] == d.mem(PlaceFrom(cfg, fr, c, i))
    decreases fr.len - c.reader
  {
    ReadPassOnDisk(d, fr, c);
    if i < c.reader + Chunk(fr, c) {
      ReadPassAt(d, fr, c, buf, i);
      ReadFromKeepsRest(cfg, DiskStep, fr, Next(fr, c), PassRead(DiskStep, d, fr, c).next, PassOut(DiskStep, d, fr, c, buf));
    } else {
      ReadFromPlaces(cfg, fr, Next(fr, c), PassRead(DiskStep, d, fr, c).next, PassOut(DiskStep, d, fr, c, buf), i);
    }
  }

  /** One read pass puts into each index `i` of its chunk the disk byte at
      `Counter + (i - reader)` in the block it reads. */
  lemma ReadPassAt(d: Disk, fr: Frame, c: Cursor, buf: seq<bv8>, i: nat)
    requires ValidFrame(fr) && c.reader < fr.len <= |buf| && c.reader <= i < c.reader + Chunk(fr, c)
    requires SeekPair(fr, c) || HeadAt(d, c)
    ensures PassOut(DiskStep, d, fr, c, buf)[i] == d.mem(Spot(fr, c, i))
  {
    ReadPassOnDisk(d, fr, c);
    var k := Counter(fr, c) + (i - c.reader);
    assert PassOut(DiskStep, d, fr, c, buf)[i] == PassRead(DiskStep, d, fr, c).data[k];
    assert Spot(fr, c, i) == TargetLin(c) * BLOCK_SIZE + k;
  }

  /** From cursor `c` on, a write leaves at `PlaceFrom(.., i)` the caller's byte
      `i`, for every reached index `i`. */
  lemma {:induction false} WriteFromPlaces(cfg: Config, fr: Frame, c: Cursor, d: Disk, buf: seq<bv8>, i: nat)
    requires ValidFrame(fr) && c.reader <= fr.len <= |buf|
    requires SeekPair(fr, c) || HeadAt(d, c)
    requires c.block <= BLOCK_SIZE && c.reader <= i < Reach(cfg, fr, c)
    ensures WriteFrom(cfg, DiskStep, fr, c, d, buf).dev.mem(PlaceFrom(cfg, fr, c, i)) == buf[i]
    decreases fr.len - c.reader
  {
    if i < c.reader + Chunk(fr, c) {
      PlaceInChunk(cfg, fr, c, i);
      WriteInChunk(cfg, fr, c, d, buf, i);
    } else {
      PlaceAfterChunk(cfg, fr, c, i);
      WritePassOnDisk(d, fr, c, buf);
      NextBlockAbove(fr, c, 0);
      WriteFromStep(cfg, DiskStep, fr, c, d, buf);
      WriteFromPlaces(cfg, fr, Next(fr, c), PassWrite(DiskStep, d, fr, c, buf), buf, i);
    }
  }

  /** The index `i` of the chunk of the pass at `c`: the write leaves the
      caller's byte `i` at byte `Counter + (i - reader)` of that pass's block. */
  lemma {:induction false} WriteInChunk(cfg: Config, fr: Frame, c: Cursor, d: Disk, buf: seq<bv8>, i: nat)
    requires ValidFrame(fr) && c.reader < fr.len <= |buf| && c.reader <= i < c.reader + Chunk(fr, c)
    requires SeekPair(fr, c) || HeadAt(d, c)
    requires c.block <= BLOCK_SIZE && InBounds(cfg, c)
    ensures WriteFrom(cfg, DiskStep, fr, c, d, buf).dev.mem(Spot(fr, c, i)) == buf[i]
  {
    var x := Spot(fr, c, i);
    var written := PassWrite(DiskStep, d, fr, c, buf);
    WritePassAt(d, fr, c, buf, i);
    WritePassHead(d, fr, c, buf);
    WrittenInPass(cfg, fr, c, written, buf, x);
    WriteFromStep(cfg, DiskStep, fr, c, d, buf);
    SameByte(WriteFrom(cfg, DiskStep, fr, c, d, buf).dev, WriteFrom(cfg, DiskStep, fr, Next(fr, c), written, buf).dev, x);
  }

  lemma {:induction false} SameByte(d: Disk, e: Disk, x: nat)
    requires d == e
    ensures d.mem(x) == e.mem(x)
  {
  }

  /** A byte the pass at `c` has just written, below the end of its block,
      survives the passes after it, since they write only higher blocks. */
  lemma {:induction false} WrittenInPass(cfg: Config, fr: Frame, c: Cursor, d1: Disk, buf: seq<bv8>, x: nat)
    requires ValidFrame(fr) && c.reader < fr.len <= |buf| && c.block <= BLOCK_SIZE
    requires x < TargetLin(c) * BLOCK_SIZE + BLOCK_SIZE
    requires HeadAt(d1, Next(fr, c))
    ensures WriteFrom(cfg, DiskStep, fr, Next(fr, c), d1, buf).dev.mem(x) == d1.mem(x)
  {
    NextBlockAbove(fr, c, 0);
    assert Lin(Next(fr, c)) == TargetLin(c) + 1;
    WriteFromKeepsBelow(cfg, fr, Next(fr, c), d1, buf, x);
  }

  /** One write pass leaves at byte `Counter + (i - reader)` of the block it
      writes the caller's byte `i`, for each index `i` of its chunk. */
  lemma {:induction false} WritePassAt(d: Disk, fr: Frame, c: Cursor, buf: seq<bv8>, i: nat)
    requires ValidFrame(fr) && c.reader < fr.len <= |buf| && c.reader <= i < c.reader + Chunk(fr, c)
    requires SeekPair(fr, c) || HeadAt(d, c)
    ensures Spot(fr, c, i) < TargetLin(c) * BLOCK_SIZE + BLOCK_SIZE
    ensures PassWrite(DiskStep, d, fr, c, buf).mem(Spot(fr, c, i)) == buf[i]
  {
    WritePassOnDisk(d, fr, c, buf);
    StoreMerged(d.mem, fr, c, PassRead(DiskStep, d, fr, c).data, buf, i);
  }

  /** Storing the merged block at the block a pass designates puts the
      caller's byte `i` at `Spot(.., i)`. */
  lemma StoreMerged(mem: nat -> bv8, fr: Frame, c: Cursor, read: Block, buf: seq<bv8>, i: nat)
    requires ValidFrame(fr) && c.reader < fr.len <= |buf| && c.reader <= i < c.reader + Chunk(fr, c)
    ensures Spot(fr, c, i) < TargetLin(c) * BLOCK_SIZE + BLOCK_SIZE
    ensures Store(mem, TargetLin(c) * BLOCK_SIZE, Merged(fr, c, read, buf))(Spot(fr, c, i)) == buf[i]
  {
    var k := Counter(fr, c) + (i - c.reader);
    assert Merged(fr, c, read, buf)[k] == buf[i];
    assert Spot(fr, c, i) == TargetLin(c) * BLOCK_SIZE + k;
  }

  /** The block a pass writes lies wholly below the first block of every later
      pass, and the next block number stays in 1..256. */
  lemma NextBlockAbove(fr: Frame, c: Cursor, j: nat)
    requires ValidFrame(fr) && c.reader < fr.len && c.block <= BLOCK_SIZE && j < BLOCK_SIZE
    ensures Next(fr, c).block <= BLOCK_SIZE
    ensures TargetLin(c) * BLOCK_SIZE + j < Lin(Next(fr, c)) * BLOCK_SIZE
    ensures Lin(c) * BLOCK_SIZE <= Lin(Next(fr, c)) * BLOCK_SIZE
  {
    assert Lin(Next(fr, c)) == TargetLin(c) + 1;
    assert Lin(c) <= TargetLin(c);
  }

  /** A write from cursor `c` on, with `c`'s block number in range, leaves every
      disk byte below the block `c` designates as it was. */
  lemma {:induction false} WriteFromKeepsBelow(cfg: Config, fr: Frame, c: Cursor, d: Disk, buf: seq<bv8>, x: nat)
    requires ValidFrame(fr) && c.reader <= fr.len <= |buf|
    requires SeekPair(fr, c) || HeadAt(d, c)
    requires c.block <= BLOCK_SIZE && x < Lin(c) * BLOCK_SIZE
    ensures WriteFrom(cfg, DiskStep, fr, c, d, buf).dev.mem(x) == d.mem(x)
    decreases fr.len - c.reader
  {
    if c.reader < fr.len && InBounds(cfg, c) {
      WritePassOnDisk(d, fr, c, buf);
      WriteFromStep(cfg, DiskStep, fr, c, d, buf);
      NextBlockAbove(fr, c, 0);
      assert x < TargetLin(c) * BLOCK_SIZE by { assert Lin(c) <= TargetLin(c); }
      assert PassWrite(DiskStep, d, fr, c, buf).mem(x) == d.mem(x);
      WriteFromKeepsBelow(cfg, fr, Next(fr, c), PassWrite(DiskStep, d, fr, c, buf), buf, x);
    }
  }

  // ---------------------------------------------------------------------------
  // Byte by byte, when every pass is aligned

  /** The same at disk address `x`, from the first pass on. */
  lemma ReadBackAt(cfg: Config, fr: Frame, st: Cursor, d: Disk, data: seq<bv8>, buf: seq<bv8>, a: nat, x: nat)
    requires Initial(fr, st) && fr.len <= |data| && fr.len <= |buf| && AlignedFrom(cfg, fr, st, a)
    requires a <= x < a + Reach(cfg, fr, st)
    ensures ReadFrom(cfg, DiskStep, fr, st, WriteFrom(cfg, DiskStep, fr, st, d, data).dev, buf).buf[x - a] == data[x - a]
  {
    WrittenAt(cfg, fr, st, d, data, a, x);
    ReadAt(cfg, fr, st, WriteFrom(cfg, DiskStep, fr, st, d, data).dev, buf, a, x);
  }

  /** A reached disk address `x` holds the caller's byte `x - a` after the write. */
  lemma WrittenAt(cfg: Config, fr: Frame, st: Cursor, d: Disk, buf: seq<bv8>, a: nat, x: nat)
    requires Initial(fr, st) && fr.len <= |buf| && AlignedFrom(cfg, fr, st, a)
    requires a <= x < a + Reach(cfg, fr, st)
    ensures WriteFrom(cfg, DiskStep, fr, st, d, buf).dev.mem(x) == buf[x - a]
  {
    WriteFromDisk(cfg, fr, st, d, buf, a, x);
  }

  /** The caller's byte `x - a` after the read is disk byte `x`, for a reached `x`. */
  lemma ReadAt(cfg: Config, fr: Frame, st: Cursor, d: Disk, buf: seq<bv8>, a: nat, x: nat)
    requires Initial(fr, st) && fr.len <= |buf| && AlignedFrom(cfg, fr, st, a)
    requires a <= x < a + Reach(cfg, fr, st)
    ensures ReadFrom(cfg, DiskStep, fr, st, d, buf).buf[x - a] == d.mem(x)
  {
    ReadFromDisk(cfg, fr, st, d, buf, a);
    assert a + (x - a) == x;
  }

  // Index bookkeeping kept apart from the disk terms.

  lemma SamePrefix(s: seq<bv8>, t: seq<bv8>, n: nat)
    requires n <= |s| && n <= |t|
    requires forall i :: 0 <= i < n ==> s[i] == t[i]
    ensures s[..n] == t[..n]
  {
  }
}

=== FILE: driver.dfy ===
/** The SMSA driver: `smsa_vmount`, `smsa_vunmount`, `smsa_vread` and
    `smsa_vwrite`, run against an abstract device.

    `VRead` and `VWrite` follow the C loops statement by statement, staging each
    block in `tmp` and copying byte by byte.  Each is proved to return, leave in
    the caller's buffer and leave in the device exactly what `Run.ReadSpec` or
    `Run.WriteSpec` describes, and to issue the commands listed there.
 */
module Driver {
  import opened Device
  import opened Schedule
  import opened Run
  import Address

  /** `uint32_t`: the type of `len`. */
  type uint32 = x: nat | x < 0x1_0000_0000

  /** What the outer loops keep: finishing the loop from the current
      variables completes the whole call. */
  ghost predicate Completes<D>(rest: Transfer<D>, trace: seq<Command>, whole: Transfer<D>)
  {
    rest.status == whole.status && rest.buf == whole.buf && rest.dev == whole.dev
    && trace + rest.trace == whole.trace
  }

  /** The inner loop of `smsa_vread`: copy from `tmp[counter ..]` into
      `buf[reader ..]` until the request or the block runs out. */
  method CopyToCaller(buf: seq<bv8>, reader: nat, len: nat, tmp: Block, counter: nat)
    returns (buf': seq<bv8>, reader': nat, counter': nat)
    requires reader <= len <= |buf| && counter <= BLOCK_SIZE
    ensures reader' - reader == counter' - counter
    ensures reader <= reader' <= len && counter' <= BLOCK_SIZE
    ensures reader' == len || counter' == BLOCK_SIZE
    ensures buf' == Splice(buf, reader, tmp, counter, reader' - reader)
  {
    buf', reader', counter' := buf, reader, counter;
    while len > reader' && BLOCK_SIZE > counter'
      invariant reader <= reader' <= len && counter' <= BLOCK_SIZE
      invariant counter' - counter == reader' - reader
      invariant |buf'| == |buf|
      invariant forall i :: 0 <= i < |buf'| ==>
                  buf'[i] == if reader <= i < reader' then tmp[counter + i - reader] else buf[i]
      decreases len - reader'
    {
      buf' := buf'[reader' := tmp[counter']];
      reader' := reader' + 1;
      counter' := counter' + 1;
    }
  }

  /** The inner loop of `smsa_vwrite`: copy from `buf[reader ..]` into
      `tmp[counter ..]` until the request or the block runs out. */
  method MergeIntoBlock(tmp: Block, counter: nat, buf: seq<bv8>, reader: nat, len: nat)
    returns (tmp': Block, reader': nat, counter': nat)
    requires reader <= len <= |buf| && counter <= BLOCK_SIZE
    ensures reader' - reader == counter' - counter
    ensures reader <= reader' <= len && counter' <= BLOCK_SIZE
    ensures reader' == len || counter' == BLOCK_SIZE
    ensures tmp' == Splice(tmp, counter, buf, reader, reader' - reader)
  {
    tmp', reader', counter' := tmp, reader, counter;
    while len > reader' && BLOCK_SIZE > counter'
      invariant reader <= reader' <= len && counter' <= BLOCK_SIZE
      invariant counter' - counter == reader' - reader
      invariant forall j :: 0 <= j < BLOCK_SIZE ==>
                  tmp'[j] == if counter <= j < counter' then buf[reader + j - counter] else tmp[j]
      decreases len - reader'
    {
      tmp' := tmp'[counter' := buf[reader']];
      reader' := reader' + 1;
      counter' := counter' + 1;
    }
  }

  lemma AppendAssoc<T>(a: seq<T>, b: seq<T>, c: seq<T>)
    ensures (a + b) + c == a + (b + c)
  {
  }

  /** The part of a pass shared by both loops, after the bounds checks: the
      seek pair on the first block number, then the rollover to the next drum. */
  method Position<D>(step: Step<D>, dev: D, fr: Frame, drum: nat, block: nat, reader: nat)
    returns (drum': nat, block': nat, counter: nat, dev': D)
    ensures var c := Cursor(drum, block, reader);
            && drum' == TargetDrum(c) && block' == TargetBlock(c) && counter == Counter(fr, c)
            && dev' == Positioned(step, dev, fr, c)
  {
    drum', block', dev' := drum, block, dev;
    if block == fr.firstBlock {
      counter := fr.bitDiff;
      dev' := step(dev', SeekDrumCmd(drum'), None).next;
      dev' := step(dev', SeekBlockCmd(block'), None).next;
    } else {
      counter := 0;
    }
    if block' == BLOCK_SIZE {
      block' := 0;
      drum' := drum' + 1;
      dev' := step(dev', SeekDrumCmd(drum'), None).next;
    }
  }

  /** One pass of the outer loop of `smsa_vread` after the bounds checks:
      position the device, DISK_READ into `tmp`, copy out of `tmp`. */
  method ReadPass<D>(step: Step<D>, fr: Frame, drum: nat, block: nat, reader: nat, dev: D, out: seq<bv8>)
    returns (drum': nat, block': nat, reader': nat, dev': D, out': seq<bv8>)
    requires ValidFrame(fr) && reader < fr.len <= |out|
    ensures Cursor(drum', block', reader') == Next(fr, Cursor(drum, block, reader))
    ensures dev' == PassRead(step, dev, fr, Cursor(drum, block, reader)).next
    ensures out' == PassOut(step, dev, fr, Cursor(drum, block, reader), out)
  {
    var counter;
    drum', block', counter, dev' := Position(step, dev, fr, drum, block, reader);
    var reply := step(dev', ReadCmd(drum', block'), None);
    var tmp := reply.data;
    dev' := reply.next;
    block' := block' + 1;
    out', reader', counter := CopyToCaller(out, reader, fr.len, tmp, counter);
  }

  /** One pass of the outer loop of `smsa_vwrite` after the bounds checks:
      position the device, DISK_READ into `tmp`, merge the caller's bytes into
      `tmp`, SEEK_BLOCK back and DISK_WRITE. */
  method WritePass<D>(step: Step<D>, fr: Frame, drum: nat, block: nat, reader: nat, dev: D, buf: seq<bv8>)
    returns (drum': nat, block': nat, reader': nat, dev': D)
    requires ValidFrame(fr) && reader < fr.len <= |buf|
    ensures Cursor(drum', block', reader') == Next(fr, Cursor(drum, block, reader))
    ensures dev' == PassWrite(step, dev, fr, Cursor(drum, block, reader), buf)
  {
    var counter;
    drum', block', counter, dev' := Position(step, dev, fr, drum, block, reader);
    var reply := step(dev', ReadCmd(drum', block'), None);
    var tmp := reply.data;
    dev' := reply.next;
    block' := block' + 1;
    tmp, reader', counter := MergeIntoBlock(tmp, counter, buf, reader, fr.len);
    dev' := step(dev', SeekBlockCmd(block' - 1), None).next;
    dev' := step(dev', WriteCmd(drum', block'), Some(tmp)).next;
  }

  /** `smsa_vread`. */
  method VRead<D>(cfg: Config, step: Step<D>, dev: D, addr: bv32, len: uint32, buf: seq<bv8>)
    returns (status: int, out: seq<bv8>, dev': D, ghost trace: seq<Command>)
    requires len <= |buf|
    ensures len == 0 ==> status == 0 && out == buf && dev' == dev
    ensures len == 0 ==> trace == []
    ensures var spec := ReadSpec(cfg, step, dev, addr, len, buf);
            status == spec.status && out == spec.buf && dev' == spec.dev
    ensures trace == ReadSpec(cfg, step, dev, addr, len, buf).trace
  {
    if len == 0 {
      return 0, buf, dev, [];
    }
    var reader: nat := 0;
    var drum: nat := Address.GetDrum(addr) as nat;
    var block: nat := Address.GetBlock(addr) as nat;
    var fr := FrameOf(addr, len);  // firstBlock, bitDiff and len
    ghost var whole := ReadFrom(cfg, step, fr, Cursor(drum, block, reader), dev, buf);
    out, dev', trace := buf, dev, [];
    while reader < len
      invariant ValidFrame(fr) && fr.len == len && reader <= len && |out| == |buf|
      invariant Completes(ReadFrom(cfg, step, fr, Cursor(drum, block, reader), dev', out), trace, whole)
      decreases len - reader
    {
      if drum > cfg.diskArraySize || block > cfg.maxBlockId {
        return -1, out, dev', trace;
      }
      ghost var cur, trace0 := Cursor(drum, block, reader), trace;
      drum, block, reader, dev', out := ReadPass(step, fr, drum, block, reader, dev', out);
      trace := trace + ReadPassCommands(fr, cur);
      AppendAssoc(trace0, ReadPassCommands(fr, cur), ReadFrom(cfg, step, fr, Next(fr, cur), dev', out).trace);
    }
    return 0, out, dev', trace;
  }

  /** `smsa_vwrite`. */
  method VWrite<D>(cfg: Config, step: Step<D>, dev: D, addr: bv32, len: uint32, buf: seq<bv8>)
    returns (status: int, dev': D, ghost trace: seq<Command>)
    requires len <= |buf|
    ensures len == 0 ==> status == 0 && dev' == dev
    ensures len == 0 ==> trace == []
    ensures var spec := WriteSpec(cfg, step, dev, addr, len, buf);
            status == spec.status && dev' == spec.dev
    ensures trace == WriteSpec(cfg, step, dev, addr, len, buf).trace
  {
    if len == 0 {
      return 0, dev, [];
    }
    var reader: nat := 0;
    var drum: nat := Address.GetDrum(addr) as nat;
    var block: nat := Address.GetBlock(addr) as nat;
    var fr := FrameOf(addr, len);  // firstBlock, bitDiff and len
    ghost var whole := WriteFrom(cfg, step, fr, Cursor(drum, block, reader), dev, buf);
    dev', trace := dev, [];
    while reader < len
      invariant ValidFrame(fr) && fr.len == len && reader <= len
      invariant Completes(WriteFrom(cfg, step, fr, Cursor(drum, block, reader), dev', buf), trace, whole)
      decreases len - reader
    {
      if drum > cfg.diskArraySize || block > cfg.maxBlockId {
        return -1, dev', trace;
      }
      ghost var cur, trace0 := Cursor(drum, block, reader), trace;
      drum, block, reader, dev' := WritePass(step, fr, drum, block, reader, dev', buf);
      trace := trace + WritePassCommands(fr, cur);
      AppendAssoc(trace0, WritePassCommands(fr, cur), WriteFrom(cfg, step, fr, Next(fr, cur), dev', buf).trace);
    }
    return 0, dev', trace;
  }

  datatype Lifecycle<D> = Lifecycle(status: int, dev: D, trace: seq<Command>)

  /** `smsa_vmount`: MOUNT, and FORMAT_DRUM only when MOUNT succeeded.  The
      status of FORMAT_DRUM is not looked at. */
  function VMount<D>(step: Step<D>, dev: D): (r: Lifecycle<D>)
    ensures r.status == 0 || r.status == -1
    ensures r.status == 0 <==> step(dev, Command(Mount, 0, 0), None).status >= 0
    ensures r.trace == [Command(Mount, 0, 0)] + (if r.status == 0 then [Command(FormatDrum, 0, 0)] else [])
    ensures var m := step(dev, Command(Mount, 0, 0), None);
            r.dev == if r.status == 0 then step(m.next, Command(FormatDrum, 0, 0), None).next else m.next
  {
    var m := step(dev, Command(Mount, 0, 0), None);
    if m.status < 0 then Lifecycle(-1, m.next, [Command(Mount, 0, 0)])
    else
      var f := step(m.next, Command(FormatDrum, 0, 0), None);
      Lifecycle(0, f.next, [Command(Mount, 0, 0), Command(FormatDrum, 0, 0)])
  }

  /** `smsa_vunmount`: UNMOUNT, failing exactly when the device rejects it. */
  function VUnmount<D>(step: Step<D>, dev: D): (r: Lifecycle<D>)
    ensures r.status == 0 || r.status == -1
    ensures r.status == 0 <==> step(dev, Command(Unmount, 0, 0), None).status >= 0
    ensures r.trace == [Command(Unmount, 0, 0)]
    ensures r.dev == step(dev, Command(Unmount, 0, 0), None).next
  {
    var u := step(dev, Command(Unmount, 0, 0), None);
    Lifecycle(if u.status < 0 then -1 else 0, u.next, [Command(Unmount, 0, 0)])
  }
}

=== FILE: run.dfy ===
/** What one `smsa_vread` or `smsa_vwrite` call does, pass by pass.

    `ReadSpec` and `WriteSpec` follow the outer loop one pass at a time: each
    pass positions the device, reads one block and either copies part of it to
    the caller's buffer or merges the caller's bytes into it and writes it
    back.  The device is any state with a step function, so what is stated
    here holds whatever the device does with the commands.  The second half
    runs the precomputed plan of `Schedule.Walk` instead and shows it gives the
    same call, which is how the facts about the plan carry over.
 */
module Run {
  import opened Device
  import opened Schedule

  /** `dst` with the `n` bytes from index `ds` replaced by `src[ss .. ss + n)`:
      the effect of one inner copy loop, in either direction. */
  function Splice(dst: seq<bv8>, ds: nat, src: seq<bv8>, ss: nat, n: nat): (r: seq<bv8>)
    requires ds + n <= |dst| && ss + n <= |src|
    ensures |r| == |dst|
    ensures forall i :: 0 <= i < |r| ==> r[i] == if ds <= i < ds + n then src[ss + i - ds] else dst[i]
  {
    dst[..ds] + src[ss..ss + n] + dst[ds + n..]
  }

  // ---------------------------------------------------------------------------
  // Commands of one pass

  /** SEEK_DRUM then SEEK_BLOCK to the pass's position, issued when the block
      number equals the first block. */
  function PairSeeks(fr: Frame, c: Cursor): seq<Command>
  {
    if SeekPair(fr, c) then [SeekDrumCmd(c.drum), SeekBlockCmd(c.block)] else []
  }

  /** SEEK_DRUM to the next drum, issued when the block number is 256. */
  function RolloverSeek(c: Cursor): seq<Command>
  {
    if Rollover(c) then [SeekDrumCmd(c.drum + 1)] else []
  }

  function ReadPassCommands(fr: Frame, c: Cursor): seq<Command>
  {
    PairSeeks(fr, c) + RolloverSeek(c) + [ReadCmd(TargetDrum(c), TargetBlock(c))]
  }

  /** After the read, `smsa_vwrite` seeks back to the block just read
      (`block - 1` once `block` has been incremented) and writes; the
      DISK_WRITE command carries the incremented block number. */
  function WritePassCommands(fr: Frame, c: Cursor): seq<Command>
  {
    ReadPassCommands(fr, c) + [SeekBlockCmd(TargetBlock(c)), WriteCmd(TargetDrum(c), TargetBlock(c) + 1)]
  }

  function ReadCommands(fr: Frame, ps: seq<Cursor>): seq<Command>
    decreases |ps|
  {
    if |ps| == 0 then [] else ReadPassCommands(fr, ps[0]) + ReadCommands(fr, ps[1..])
  }

  function WriteCommands(fr: Frame, ps: seq<Cursor>): seq<Command>
    decreases |ps|
  {
    if |ps| == 0 then [] else WritePassCommands(fr, ps[0]) + WriteCommands(fr, ps[1..])
  }

  /** The three shapes one pass can take: the seek pair and a read at the
      position, a rollover seek and a read of block 0 of the next drum, or a
      bare read relying on the device's position. */
  lemma PassCommandShapes(fr: Frame, c: Cursor)
    requires ValidFrame(fr)
    ensures SeekPair(fr, c) ==>
              ReadPassCommands(fr, c) == [SeekDrumCmd(c.drum), SeekBlockCmd(c.block), ReadCmd(c.drum, c.block)]
    ensures Rollover(c) ==>
              ReadPassCommands(fr, c) == [SeekDrumCmd(c.drum + 1), ReadCmd(c.drum + 1, 0)]
    ensures !SeekPair(fr, c) && !Rollover(c) ==> ReadPassCommands(fr, c) == [ReadCmd(c.drum, c.block)]
  {
  }

  // ---------------------------------------------------------------------------
  // One pass

  /** The device after the seeks of a pass (status ignored, as in the C loops). */
  function Positioned<D>(step: Step<D>, dev: D, fr: Frame, c: Cursor): D
  {
    var d := if SeekPair(fr, c)
             then step(step(dev, SeekDrumCmd(c.drum), None).next, SeekBlockCmd(c.block), None).next
             else dev;
    if Rollover(c) then step(d, SeekDrumCmd(c.drum + 1), None).next else d
  }

  /** The DISK_READ of a pass, issued once the device is positioned. */
  function PassRead<D>(step: Step<D>, dev: D, fr: Frame, c: Cursor): Reply<D>
  {
    step(Positioned(step, dev, fr, c), ReadCmd(TargetDrum(c), TargetBlock(c)), None)
  }

  /** The caller's buffer after the copy of one read pass. */
  function PassOut<D>(step: Step<D>, dev: D, fr: Frame, c: Cursor, buf: seq<bv8>): seq<bv8>
    requires ValidFrame(fr) && c.reader < fr.len <= |buf|
  {
    Splice(buf, c.reader, PassRead(step, dev, fr, c).data, Counter(fr, c), Chunk(fr, c))
  }

  /** The device after one write pass: the read, the merge into `tmp`,
      SEEK_BLOCK back to the block read and DISK_WRITE of `tmp`. */
  function PassWrite<D>(step: Step<D>, dev: D, fr: Frame, c: Cursor, buf: seq<bv8>): D
    requires ValidFrame(fr) && c.reader < fr.len <= |buf|
  {
    var reply := PassRead(step, dev, fr, c);
    var tmp := Merged(fr, c, reply.data, buf);
    var dev2 := step(reply.next, SeekBlockCmd(TargetBlock(c)), None).next;
    step(dev2, WriteCmd(TargetDrum(c), TargetBlock(c) + 1), Some(tmp)).next
  }

  /** The block `tmp` holds after the merge: the block as read, with the
      `Chunk` bytes from `counter` on replaced by the caller's bytes. */
  function Merged(fr: Frame, c: Cursor, read: Block, buf: seq<bv8>): Block
    requires ValidFrame(fr) && c.reader < fr.len <= |buf|
  {
    Splice(read, Counter(fr, c), buf, c.reader, Chunk(fr, c))
  }

  // ---------------------------------------------------------------------------
  // One call

  /** The result of a read or write call: the value returned, the caller's
      buffer afterwards, the device afterwards and the commands issued. */
  datatype Transfer<D> = Transfer(status: int, buf: seq<bv8>, dev: D, trace: seq<Command>)

  /** The outer loop of `smsa_vread` from loop variables `c` on, computed pass
      by pass without first computing the plan.  Running the plan gives the same
      result (`ReadFromFollowsPlan`); this form keeps the disk proofs small. */
  function ReadFrom<D>(cfg: Config, step: Step<D>, fr: Frame, c: Cursor, dev: D, buf: seq<bv8>): (r: Transfer<D>)
    requires ValidFrame(fr) && c.reader <= fr.len <= |buf|
    ensures |r.buf| == |buf|
    decreases fr.len - c.reader
  {
    if c.reader >= fr.len then Transfer(0, buf, dev, [])
    else if !InBounds(cfg, c) then Transfer(-1, buf, dev, [])
    else
      var rest := ReadFrom(cfg, step, fr, Next(fr, c), PassRead(step, dev, fr, c).next, PassOut(step, dev, fr, c, buf));
      Transfer(rest.status, rest.buf, rest.dev, ReadPassCommands(fr, c) + rest.trace)
  }

  /** The same for `smsa_vwrite`. */
  function WriteFrom<D>(cfg: Config, step: Step<D>, fr: Frame, c: Cursor, dev: D, buf: seq<bv8>): (r: Transfer<D>)
    requires ValidFrame(fr) && c.reader <= fr.len <= |buf|
    ensures r.buf == buf
    decreases fr.len - c.reader
  {
    if c.reader >= fr.len then Transfer(0, buf, dev, [])
    else if !InBounds(cfg, c) then Transfer(-1, buf, dev, [])
    else
      var rest := WriteFrom(cfg, step, fr, Next(fr, c), PassWrite(step, dev, fr, c, buf), buf);
      Transfer(rest.status, buf, rest.dev, WritePassCommands(fr, c) + rest.trace)
  }

  /** A call returns 0 exactly when the loop reaches `len`, and -1 when a
      bounds check stops it first. */
  lemma {:induction false} ReadFromStatus<D>(cfg: Config, step: Step<D>, fr: Frame, c: Cursor, dev: D, buf: seq<bv8>)
    requires ValidFrame(fr) && c.reader <= fr.len <= |buf|
    ensures ReadFrom(cfg, step, fr, c, dev, buf).status == if Reach(cfg, fr, c) == fr.len then 0 else -1
    decreases fr.len - c.reader
  {
    if c.reader < fr.len && InBounds(cfg, c) {
      ReadFromStatus(cfg, step, fr, Next(fr, c), PassRead(step, dev, fr, c).next, PassOut(step, dev, fr, c, buf));
    }
  }

  lemma {:induction false} WriteFromStatus<D>(cfg: Config, step: Step<D>, fr: Frame, c: Cursor, dev: D, buf: seq<bv8>)
    requires ValidFrame(fr) && c.reader <= fr.len <= |buf|
    ensures WriteFrom(cfg, step, fr, c, dev, buf).status == if Reach(cfg, fr, c) == fr.len then 0 else -1
    decreases fr.len - c.reader
  {
    if c.reader < fr.len && InBounds(cfg, c) {
      WriteFromStatus(cfg, step, fr, Next(fr, c), PassWrite(step, dev, fr, c, buf), buf);
    }
  }

  /** An in-bounds write pass with bytes left hands its device to the write
      from the next pass, which stops at the same `reader`. */
  lemma WriteFromStep<D>(cfg: Config, step: Step<D>, fr: Frame, c: Cursor, dev: D, buf: seq<bv8>)
    requires ValidFrame(fr) && c.reader < fr.len <= |buf| && InBounds(cfg, c)
    ensures WriteFrom(cfg, step, fr, c, dev, buf).dev
              == WriteFrom(cfg, step, fr, Next(fr, c), PassWrite(step, dev, fr, c, buf), buf).dev
    ensures Reach(cfg, fr, c) == Reach(cfg, fr, Next(fr, c))
  {
  }

  /** `smsa_vread(addr, len, buf)`: 0 when the loop copies all `len` bytes,
      -1 when a bounds check stops it first. */
  function ReadSpec<D>(cfg: Config, step: Step<D>, dev: D, addr: bv32, len: nat, buf: seq<bv8>): (r: Transfer<D>)
    requires len <= |buf|
    ensures r.status == (if Reach(cfg, FrameOf(addr, len), Start(addr)) == len then 0 else -1)
    ensures |r.buf| == |buf|
  {
    ReadFromStatus(cfg, step, FrameOf(addr, len), Start(addr), dev, buf);
    ReadFrom(cfg, step, FrameOf(addr, len), Start(addr), dev, buf)
  }

  /** `smsa_vwrite(addr, len, buf)`: the same status, and the caller's buffer
      is only read. */
  function WriteSpec<D>(cfg: Config, step: Step<D>, dev: D, addr: bv32, len: nat, buf: seq<bv8>): (r: Transfer<D>)
    requires len <= |buf|
    ensures r.status == (if Reach(cfg, FrameOf(addr, len), Start(addr)) == len then 0 else -1)
    ensures r.buf == buf
  {
    WriteFromStatus(cfg, step, FrameOf(addr, len), Start(addr), dev, buf);
    WriteFrom(cfg, step, FrameOf(addr, len), Start(addr), dev, buf)
  }

  /** A read changes the caller's buffer only between the buffer index it
      starts from and the index the loop stops at; in particular nothing at or
      beyond `len`, and on a -1 return the bytes copied before the failing
      check stay in place. */
  lemma {:induction false} ReadFromKeepsRest<D>(cfg: Config, step: Step<D>, fr: Frame, c: Cursor, dev: D, buf: seq<bv8>)
    requires ValidFrame(fr) && c.reader <= fr.len <= |buf|
    ensures forall i :: 0 <= i < |buf| && !(c.reader <= i < Reach(cfg, fr, c)) ==>
              ReadFrom(cfg, step, fr, c, dev, buf).buf[i] == buf[i]
    decreases fr.len - c.reader
  {
    if c.reader < fr.len && InBounds(cfg, c) {
      ReadFromKeepsRest(cfg, step, fr, Next(fr, c), PassRead(step, dev, fr, c).next, PassOut(step, dev, fr, c, buf));
    }
  }

  lemma ReadKeepsRest<D>(cfg: Config, step: Step<D>, dev: D, addr: bv32, len: nat, buf: seq<bv8>)
    requires len <= |buf|
    ensures |ReadSpec(cfg, step, dev, addr, len, buf).buf| == |buf|
    ensures forall i :: Reach(cfg, FrameOf(addr, len), Start(addr)) <= i < |buf| ==>
              ReadSpec(cfg, step, dev, addr, len, buf).buf[i] == buf[i]
  {
    ReadFromKeepsRest(cfg, step, FrameOf(addr, len), Start(addr), dev, buf);
  }

  // ---------------------------------------------------------------------------
  // The same call as a run of the plan

  lemma ChainedTail(fr: Frame, ps: seq<Cursor>)
    requires Chained(fr, ps) && |ps| > 0
    ensures Chained(fr, ps[1..])
  {
  }

  datatype ReadRun<D> = ReadRun(dev: D, buf: seq<bv8>, trace: seq<Command>)

  /** Each pass: the seeks, DISK_READ into `tmp`, and the copy of `Chunk` bytes
      from `tmp[counter ..]` to `buf[reader ..]`. */
  function RunRead<D>(step: Step<D>, dev: D, fr: Frame, ps: seq<Cursor>, buf: seq<bv8>): (r: ReadRun<D>)
    requires Chained(fr, ps) && fr.len <= |buf|
    ensures |r.buf| == |buf|
    decreases |ps|
  {
    if |ps| == 0 then ReadRun(dev, buf, [])
    else
      var c := ps[0];
      ChainedTail(fr, ps);
      var rest := RunRead(step, PassRead(step, dev, fr, c).next, fr, ps[1..], PassOut(step, dev, fr, c, buf));
      ReadRun(rest.dev, rest.buf, ReadPassCommands(fr, c) + rest.trace)
  }

  datatype WriteRun<D> = WriteRun(dev: D, trace: seq<Command>)

  /** Each pass: the seeks, DISK_READ into `tmp`, the merge, SEEK_BLOCK back
      and DISK_WRITE of `tmp`. */
  function RunWrite<D>(step: Step<D>, dev: D, fr: Frame, ps: seq<Cursor>, buf: seq<bv8>): (r: WriteRun<D>)
    requires Chained(fr, ps) && fr.len <= |buf|
    decreases |ps|
  {
    if |ps| == 0 then WriteRun(dev, [])
    else
      var c := ps[0];
      ChainedTail(fr, ps);
      var rest := RunWrite(step, PassWrite(step, dev, fr, c, buf), fr, ps[1..], buf);
      WriteRun(rest.dev, WritePassCommands(fr, c) + rest.trace)
  }

  /** Running the loop pass by pass is running the plan of `Schedule.Walk`. */
  lemma {:induction false} ReadFromFollowsPlan<D>(cfg: Config, step: Step<D>, fr: Frame, c: Cursor, dev: D, buf: seq<bv8>)
    requires ValidFrame(fr) && c.reader <= fr.len <= |buf|
    ensures var p := Walk(cfg, fr, c);
            var run := RunRead(step, dev, fr, p.passes, buf);
            ReadFrom(cfg, step, fr, c, dev, buf) == Transfer(p.status, run.buf, run.dev, run.trace)
    decreases fr.len - c.reader
  {
    if c.reader < fr.len && InBounds(cfg, c) {
      WalkStep(cfg, fr, c);
      ReadFromFollowsPlan(cfg, step, fr, Next(fr, c), PassRead(step, dev, fr, c).next, PassOut(step, dev, fr, c, buf));
    }
  }

  lemma {:induction false} WriteFromFollowsPlan<D>(cfg: Config, step: Step<D>, fr: Frame, c: Cursor, dev: D, buf: seq<bv8>)
    requires ValidFrame(fr) && c.reader <= fr.len <= |buf|
    ensures var p := Walk(cfg, fr, c);
            var run := RunWrite(step, dev, fr, p.passes, buf);
            WriteFrom(cfg, step, fr, c, dev, buf) == Transfer(p.status, buf, run.dev, run.trace)
    decreases fr.len - c.reader
  {
    if c.reader < fr.len && InBounds(cfg, c) {
      WalkStep(cfg, fr, c);
      WriteFromFollowsPlan(cfg, step, fr, Next(fr, c), PassWrite(step, dev, fr, c, buf), buf);
    }
  }

  /** A call is its plan run against the device: the status is the plan's and
      the buffer, device and commands are those of running its passes. */
  lemma ReadSpecFollowsPlan<D>(cfg: Config, step: Step<D>, dev: D, addr: bv32, len: nat, buf: seq<bv8>)
    requires len <= |buf|
    ensures var p := PlanOf(cfg, addr, len);
            var run := RunRead(step, dev, FrameOf(addr, len), p.passes, buf);
            ReadSpec(cfg, step, dev, addr, len, buf) == Transfer(p.status, run.buf, run.dev, run.trace)
  {
    ReadFromFollowsPlan(cfg, step, FrameOf(addr, len), Start(addr), dev, buf);
  }

  lemma WriteSpecFollowsPlan<D>(cfg: Config, step: Step<D>, dev: D, addr: bv32, len: nat, buf: seq<bv8>)
    requires len <= |buf|
    ensures var p := PlanOf(cfg, addr, len);
            var run := RunWrite(step, dev, FrameOf(addr, len), p.passes, buf);
            WriteSpec(cfg, step, dev, addr, len, buf) == Transfer(p.status, buf, run.dev, run.trace)
  {
    WriteFromFollowsPlan(cfg, step, FrameOf(addr, len), Start(addr), dev, buf);
  }

  lemma {:induction false} ReadTraceIsPlanned<D>(step: Step<D>, dev: D, fr: Frame, ps: seq<Cursor>, buf: seq<bv8>)
    requires Chained(fr, ps) && fr.len <= |buf|
    ensures RunRead(step, dev, fr, ps, buf).trace == ReadCommands(fr, ps)
    decreases |ps|
  {
    if |ps| > 0 {
      ChainedTail(fr, ps);
      var c := ps[0];
      ReadTraceIsPlanned(step, PassRead(step, dev, fr, c).next, fr, ps[1..], PassOut(step, dev, fr, c, buf));
    }
  }

  lemma {:induction false} WriteTraceIsPlanned<D>(step: Step<D>, dev: D, fr: Frame, ps: seq<Cursor>, buf: seq<bv8>)
    requires Chained(fr, ps) && fr.len <= |buf|
    ensures RunWrite(step, dev, fr, ps, buf).trace == WriteCommands(fr, ps)
    decreases |ps|
  {
    if |ps| > 0 {
      ChainedTail(fr, ps);
      WriteTraceIsPlanned(step, PassWrite(step, dev, fr, ps[0], buf), fr, ps[1..], buf);
    }
  }

  /** The commands a call issues are fixed by the plan: two devices, whatever
      they answer, receive the same commands from the same call. */
  lemma CommandsIndependentOfDevice<D, E>(cfg: Config, addr: bv32, len: nat,
                                          step: Step<D>, dev: D, buf: seq<bv8>,
                                          step': Step<E>, dev': E, buf': seq<bv8>)
    requires len <= |buf| && len <= |buf'|
    ensures ReadSpec(cfg, step, dev, addr, len, buf).trace == ReadCommands(FrameOf(addr, len), PlanOf(cfg, addr, len).passes)
    ensures ReadSpec(cfg, step, dev, addr, len, buf).trace == ReadSpec(cfg, step', dev', addr, len, buf').trace
    ensures WriteSpec(cfg, step, dev, addr, len, buf).trace == WriteCommands(FrameOf(addr, len), PlanOf(cfg, addr, len).passes)
    ensures WriteSpec(cfg, step, dev, addr, len, buf).trace == WriteSpec(cfg, step', dev', addr, len, buf').trace
  {
    var fr, ps := FrameOf(addr, len), PlanOf(cfg, addr, len).passes;
    ReadSpecFollowsPlan(cfg, step, dev, addr, len, buf);
    ReadSpecFollowsPlan(cfg, step', dev', addr, len, buf');
    WriteSpecFollowsPlan(cfg, step, dev, addr, len, buf);
    WriteSpecFollowsPlan(cfg, step', dev', addr, len, buf');
    ReadTraceIsPlanned(step, dev, fr, ps, buf);
    ReadTraceIsPlanned(step', dev', fr, ps, buf');
    WriteTraceIsPlanned(step, dev, fr, ps, buf);
    WriteTraceIsPlanned(step', dev', fr, ps, buf');
  }
}

=== FILE: scenarios.dfy ===
/** Concrete calls, with the command sequences they issue on any device. */
module Scenarios {
  import opened Device
  import opened Schedule
  import opened Run

  /** `smsa_vwrite(200, 100, buf)`: byte 200 of block 0 of drum 0, so the
      write covers the last 56 bytes of block 0 and the first 44 of block 1.
      Only the first pass seeks; block 1 is read where the head was left, and
      each DISK_WRITE carries the block number after the one written. */
  lemma UnalignedWriteAcrossBlocks<D>(cfg: Config, step: Step<D>, dev: D, buf: seq<bv8>)
    requires cfg.maxBlockId >= 1 && |buf| >= 100
    ensures WriteSpec(cfg, step, dev, 200, 100, buf).status == 0
    ensures WriteSpec(cfg, step, dev, 200, 100, buf).trace
            == [SeekDrumCmd(0), SeekBlockCmd(0), ReadCmd(0, 0), SeekBlockCmd(0), WriteCmd(0, 1),
                ReadCmd(0, 1), SeekBlockCmd(1), WriteCmd(0, 2)]
  {
    var fr := FrameOf(200, 100);
    assert fr == Frame(0, 200, 100);
    var c0 := Start(200);
    assert c0 == Cursor(0, 0, 0);
    var c1 := Next(fr, c0);
    assert c1 == Cursor(0, 1, 56);
    var c2 := Next(fr, c1);
    assert c2 == Cursor(0, 2, 100);
    var dev1 := PassWrite(step, dev, fr, c0, buf);
    var dev2 := PassWrite(step, dev1, fr, c1, buf);
    assert WriteFrom(cfg, step, fr, c2, dev2, buf).trace == [];
    assert WriteFrom(cfg, step, fr, c1, dev1, buf).trace == WritePassCommands(fr, c1);
  }

  /** `smsa_vread(0x0002_0500, 10, buf)` with `SMSA_MAX_BLOCK_ID` 4: block 5
      fails the block check before any command is issued. */
  lemma ReadPastLastBlock<D>(step: Step<D>, dev: D, buf: seq<bv8>)
    requires |buf| >= 10
    ensures ReadSpec(Config(4, 4), step, dev, 0x0002_0500, 10, buf) == Transfer(-1, buf, dev, [])
  {
    assert Start(0x0002_0500) == Cursor(2, 5, 0);
  }
  /** `smsa_vread(0xFF00, 300, buf)` with `SMSA_DISK_ARRAY_SIZE` 0 and
      `SMSA_MAX_BLOCK_ID` 300: block 255 of drum 0 is read whole, and the next
      pass, at block 256 of drum 0, passes both checks, rolls over and reads
      block 0 of drum 1, one past the last drum the check admits.  The call
      returns 0. */
  lemma ReadRollsPastLastDrum<D>(step: Step<D>, dev: D, buf: seq<bv8>)
    requires |buf| >= 300
    ensures ReadSpec(Config(0, 300), step, dev, 0x0000_FF00, 300, buf).status == 0
    ensures ReadSpec(Config(0, 300), step, dev, 0x0000_FF00, 300, buf).trace
            == [SeekDrumCmd(0), SeekBlockCmd(255), ReadCmd(0, 255), SeekDrumCmd(1), ReadCmd(1, 0)]
  {
    var fr := FrameOf(0x0000_FF00, 300);
    assert fr == Frame(255, 0, 300);
    var c0 := Start(0x0000_FF00);
    assert c0 == Cursor(0, 255, 0);
    var c1 := Next(fr, c0);
    assert c1 == Cursor(0, 256, 256);
    var c2 := Next(fr, c1);
    assert c2 == Cursor(1, 1, 300);
    var dev1 := PassRead(step, dev, fr, c0).next;
    var out1 := PassOut(step, dev, fr, c0, buf);
    var dev2 := PassRead(step, dev1, fr, c1).next;
    var out2 := PassOut(step, dev1, fr, c1, out1);
    assert ReadFrom(Config(0, 300), step, fr, c2, dev2, out2).trace == [];
    assert ReadFrom(Config(0, 300), step, fr, c1, dev1, out1).trace == ReadPassCommands(fr, c1);
  }
}

=== FILE: schedule.dfy ===
/** The control flow of the transfer loops of `smsa_vread` and `smsa_vwrite`.

    Both loops move through the same positions, and nothing they receive from
    the device changes that: which blocks are visited, which bytes of each block
    are copied, and whether the call ends with 0 or -1 depend only on the
    configuration, the address and the length.  This module computes that plan;
    the driver module runs it against a device.
 */
module Schedule {
  import opened Device
  import Address

  /** The header constants the driver compares against: `SMSA_DISK_ARRAY_SIZE`
      and `SMSA_MAX_BLOCK_ID`.  Their values are not part of this model. */
  datatype Config = Config(diskArraySize: nat, maxBlockId: nat)

  /** Values fixed for one call: `firstBlock`, `bitDiff` (the byte offset) and `len`. */
  datatype Frame = Frame(firstBlock: nat, bitDiff: nat, len: nat)

  predicate ValidFrame(fr: Frame)
  {
    fr.firstBlock < BLOCK_SIZE && fr.bitDiff < BLOCK_SIZE
  }

  /** The loop variables `drum`, `block` and `reader` at the top of one pass of
      the outer loop. */
  datatype Cursor = Cursor(drum: nat, block: nat, reader: nat)

  /** The passes that get past the bounds checks, the value returned and the
      final value of `reader`. */
  datatype Plan = Plan(passes: seq<Cursor>, status: int, reader: nat)

  function FrameOf(addr: bv32, len: nat): (fr: Frame)
    ensures ValidFrame(fr)
  {
    Address.FieldRanges(addr);
    Frame(Address.GetBlock(addr) as nat, Address.GetOffset(addr) as nat, len)
  }

  /** The loop variables before the first pass. */
  function Start(addr: bv32): Cursor
  {
    Cursor(Address.GetDrum(addr) as nat, Address.GetBlock(addr) as nat, 0)
  }

  /** The two bounds tests as the C code writes them, on signed values: the
      drum test `drum < 0 || drum > SMSA_DISK_ARRAY_SIZE`, then the block test
      `block < 0 || block > SMSA_MAX_BLOCK_ID`.  Either one returns -1. */
  predicate BoundsTestFires(cfg: Config, drum: int, block: int)
  {
    (drum < 0 || drum > cfg.diskArraySize) || (block < 0 || block > cfg.maxBlockId)
  }

  /** The bounds checks at the top of every pass.  The drum test is `>`, so a
      drum equal to `SMSA_DISK_ARRAY_SIZE` passes.  A pass goes ahead exactly
      when neither C test fires; the `< 0` halves never fire on the loop's
      positions. */
  predicate InBounds(cfg: Config, c: Cursor)
  {
    c.drum <= cfg.diskArraySize && c.block <= cfg.maxBlockId
  }

  lemma BoundsTestsAsWritten(cfg: Config, c: Cursor)
    ensures InBounds(cfg, c) <==> !BoundsTestFires(cfg, c.drum, c.block)
  {
  }

  /** A pass whose block number equals `firstBlock` seeks and starts at the offset. */
  predicate SeekPair(fr: Frame, c: Cursor)
  {
    c.block == fr.firstBlock
  }

  /** A pass that finds `block == SMSA_BLOCK_SIZE` moves to block 0 of the next drum. */
  predicate Rollover(c: Cursor)
  {
    c.block == BLOCK_SIZE
  }

  /** `counter` at the start of the copy. */
  function Counter(fr: Frame, c: Cursor): nat
  {
    if SeekPair(fr, c) then fr.bitDiff else 0
  }

  /** `counter` indexes inside `tmp`, and is nonzero only on a pass that seeks. */
  lemma CounterInBlock(fr: Frame, c: Cursor)
    requires ValidFrame(fr)
    ensures Counter(fr, c) < BLOCK_SIZE
    ensures Counter(fr, c) != 0 ==> SeekPair(fr, c)
  {
  }

  /** The drum and block the pass reads, after any rollover. */
  function TargetDrum(c: Cursor): nat
  {
    if Rollover(c) then c.drum + 1 else c.drum
  }

  function TargetBlock(c: Cursor): nat
  {
    if Rollover(c) then 0 else c.block
  }

  /** Bytes the inner loop copies: it stops when either the request or the
      block runs out. */
  function Chunk(fr: Frame, c: Cursor): (n: nat)
    requires ValidFrame(fr) && c.reader < fr.len
    ensures 1 <= n
    ensures c.reader + n <= fr.len && Counter(fr, c) + n <= BLOCK_SIZE
    ensures c.reader + n == fr.len || Counter(fr, c) + n == BLOCK_SIZE
  {
    if fr.len - c.reader < BLOCK_SIZE - Counter(fr, c) then fr.len - c.reader
    else BLOCK_SIZE - Counter(fr, c)
  }

  /** The loop variables at the top of the following pass. */
  function Next(fr: Frame, c: Cursor): Cursor
    requires ValidFrame(fr) && c.reader < fr.len
  {
    Cursor(TargetDrum(c), TargetBlock(c) + 1, c.reader + Chunk(fr, c))
  }

  /** Every pass makes progress: `reader` grows and stays within `len`, the
      pass ends because the request or the block ran out, and the block number
      that follows is in 1..256 when this one was in range. */
  lemma NextAdvances(fr: Frame, c: Cursor)
    requires ValidFrame(fr) && c.reader < fr.len
    ensures c.reader < Next(fr, c).reader <= fr.len
    ensures Next(fr, c).reader == fr.len || Counter(fr, c) + (Next(fr, c).reader - c.reader) == BLOCK_SIZE
    ensures 1 <= Next(fr, c).block && (c.block <= BLOCK_SIZE ==> Next(fr, c).block <= BLOCK_SIZE)
  {
  }

  /** Consecutive passes follow each other by `Next`. */
  predicate Chained(fr: Frame, ps: seq<Cursor>)
  {
    && ValidFrame(fr)
    && (forall k :: 0 <= k < |ps| ==> ps[k].reader < fr.len)
    && (forall k :: 0 <= k < |ps| - 1 ==> ps[k + 1] == Next(fr, ps[k]))
  }

  /** The loop variables when the loop test or a bounds check ends the call. */
  function Final(fr: Frame, start: Cursor, ps: seq<Cursor>): Cursor
    requires Chained(fr, ps)
  {
    if |ps| == 0 then start else Next(fr, ps[|ps| - 1])
  }

  /** The outer loop from cursor `cur` on. */
  function Walk(cfg: Config, fr: Frame, cur: Cursor): (p: Plan)
    requires ValidFrame(fr) && cur.reader <= fr.len
    ensures p.status == 0 || p.status == -1
    ensures Chained(fr, p.passes)
    ensures |p.passes| > 0 ==> p.passes[0] == cur
    ensures forall k :: 0 <= k < |p.passes| ==> InBounds(cfg, p.passes[k]) && cur.reader <= p.passes[k].reader
    ensures p.reader == Final(fr, cur, p.passes).reader
    ensures cur.reader <= p.reader <= fr.len
    ensures p.status == 0 <==> p.reader == fr.len
    ensures p.status == -1 ==> !InBounds(cfg, Final(fr, cur, p.passes))
    decreases fr.len - cur.reader
  {
    if cur.reader >= fr.len then Plan([], 0, cur.reader)
    else if !InBounds(cfg, cur) then Plan([], -1, cur.reader)
    else
      var rest := Walk(cfg, fr, Next(fr, cur));
      Plan([cur] + rest.passes, rest.status, rest.reader)
  }

  /** An in-bounds pass with bytes left is followed by the walk from `Next`. */
  lemma WalkStep(cfg: Config, fr: Frame, cur: Cursor)
    requires ValidFrame(fr) && cur.reader < fr.len && InBounds(cfg, cur)
    ensures Walk(cfg, fr, cur).status == Walk(cfg, fr, Next(fr, cur)).status
    ensures Walk(cfg, fr, cur).reader == Walk(cfg, fr, Next(fr, cur)).reader
    ensures |Walk(cfg, fr, cur).passes| > 0 && Walk(cfg, fr, cur).passes[0] == cur
    ensures Walk(cfg, fr, cur).passes[1..] == Walk(cfg, fr, Next(fr, cur)).passes
  {
    var rest := Walk(cfg, fr, Next(fr, cur)).passes;
    assert ([cur] + rest)[1..] == rest;
  }

  /** The value of `reader` when the outer loop stops: the number of bytes the
      call transferred.  This is `Walk(..).reader` (`ReachIsPlanReader`),
      computed without building the plan so that proofs about it stay small. */
  function Reach(cfg: Config, fr: Frame, cur: Cursor): (n: nat)
    requires ValidFrame(fr) && cur.reader <= fr.len
    ensures cur.reader <= n <= fr.len
    decreases fr.len - cur.reader
  {
    if cur.reader >= fr.len || !InBounds(cfg, cur) then cur.reader
    else Reach(cfg, fr, Next(fr, cur))
  }

  /** The loop stops where the plan's final cursor is. */
  lemma {:induction false} ReachIsPlanReader(cfg: Config, fr: Frame, cur: Cursor)
    requires ValidFrame(fr) && cur.reader <= fr.len
    ensures Reach(cfg, fr, cur) == Walk(cfg, fr, cur).reader
    decreases fr.len - cur.reader
  {
    if cur.reader < fr.len && InBounds(cfg, cur) {
      WalkStep(cfg, fr, cur);
      ReachIsPlanReader(cfg, fr, Next(fr, cur));
    }
  }

  /** The plan of one `smsa_vread` or `smsa_vwrite` call. */
  function PlanOf(cfg: Config, addr: bv32, len: nat): Plan
  {
    Walk(cfg, FrameOf(addr, len), Start(addr))
  }
}

=== FILE: schedule_facts.dfy ===
/** Properties of the transfer plan: which block each pass reads, when the seek
    pair is issued, where the copied bytes sit in the virtual address space and
    when the bounds checks end a call.

    Positions are compared in drum-major block order: block `b` of drum `d` is
    block number `d * 256 + b`.  Because a drum holds 256 blocks of 256 bytes,
    this is the order of the virtual addresses themselves.
 */
module ScheduleFacts {
  import opened Device
  import opened Schedule
  import Address

  /** The block number of a cursor's position in drum-major order.  A cursor
      at block 256 of drum `d` and one at block 0 of drum `d + 1` coincide. */
  function Lin(c: Cursor): nat
  {
    c.drum * BLOCK_SIZE + c.block
  }

  /** The block number, in drum-major order, of the block a pass reads. */
  function TargetLin(c: Cursor): nat
  {
    TargetDrum(c) * BLOCK_SIZE + TargetBlock(c)
  }

  /** The byte address `addr` as a number, assembled from its decoded fields
      (`Address.Decomposition` shows the fields reassemble to `addr`). */
  function ByteAddress(addr: bv32): nat
  {
    Lin(Start(addr)) * BLOCK_SIZE + Address.GetOffset(addr) as nat
  }

  /** The bytes a pass copies are those at virtual address `a + reader`: the
      first copied byte of the block sits at the address the caller's buffer
      index `reader` corresponds to. */
  predicate Aligned(fr: Frame, a: nat, c: Cursor)
  {
    TargetLin(c) * BLOCK_SIZE + Counter(fr, c) == a + c.reader
  }

  /** The byte address the pass at `c` copies buffer index `i` to or from: the
      byte `Counter + (i - reader)` of the block it designates. */
  function Spot(fr: Frame, c: Cursor, i: nat): nat
    requires ValidFrame(fr) && c.reader <= i
  {
    TargetLin(c) * BLOCK_SIZE + Counter(fr, c) + (i - c.reader)
  }

  /** The byte address the passes from `c` on copy buffer index `i` to or from:
      the byte `Counter + (i - reader)` of the block read by the pass whose
      chunk holds `i`.  It is `a + i` when every pass is aligned to `a`, and
      differs from it once a pass re-applies the offset. */
  function PlaceFrom(cfg: Config, fr: Frame, c: Cursor, i: nat): nat
    requires ValidFrame(fr) && c.reader <= fr.len && c.reader <= i
    decreases fr.len - c.reader
  {
    if c.reader < fr.len && InBounds(cfg, c) && c.reader + Chunk(fr, c) <= i
    then PlaceFrom(cfg, fr, Next(fr, c), i)
    else Spot(fr, c, i)
  }

  /** Inside the chunk of the pass at `c`, the place is in the block that pass
      designates. */
  lemma PlaceInChunk(cfg: Config, fr: Frame, c: Cursor, i: nat)
    requires ValidFrame(fr) && c.reader < fr.len && c.reader <= i < c.reader + Chunk(fr, c)
    ensures PlaceFrom(cfg, fr, c, i) == Spot(fr, c, i)
  {
  }

  /** Past the chunk of the pass at `c`, a reached index is placed by the
      passes after it. */
  lemma PlaceAfterChunk(cfg: Config, fr: Frame, c: Cursor, i: nat)
    requires ValidFrame(fr) && c.reader < fr.len && c.reader + Chunk(fr, c) <= i < Reach(cfg, fr, c)
    ensures InBounds(cfg, c) && Next(fr, c).reader <= i < Reach(cfg, fr, Next(fr, c))
    ensures PlaceFrom(cfg, fr, c, i) == PlaceFrom(cfg, fr, Next(fr, c), i)
  {
  }

  // ---------------------------------------------------------------------------
  // Positions

  /** Along a chain of passes the position advances by one block per pass, and
      after the first pass the block number is between 1 and 256. */
  lemma {:induction false} ChainIsConsecutive(fr: Frame, ps: seq<Cursor>, k: nat)
    requires Chained(fr, ps) && k < |ps| && ps[0].block <= BLOCK_SIZE
    ensures Lin(ps[k]) == Lin(ps[0]) + k
    ensures TargetLin(ps[k]) == Lin(ps[0]) + k
    ensures ps[k].block <= BLOCK_SIZE && (k > 0 ==> 1 <= ps[k].block)
    decreases k
  {
    if k > 0 {
      ChainIsConsecutive(fr, ps, k - 1);
      assert ps[k] == Next(fr, ps[k - 1]);
    }
  }

  /** Pass `k` of a call reads the `k`-th block after the addressed one, in
      drum-major order; a block-256 rollover lands on block 0 of the next drum. */
  lemma PassesReadConsecutiveBlocks(cfg: Config, addr: bv32, len: nat, k: nat)
    requires k < |PlanOf(cfg, addr, len).passes|
    ensures Lin(PlanOf(cfg, addr, len).passes[k]) == Lin(Start(addr)) + k
    ensures TargetLin(PlanOf(cfg, addr, len).passes[k]) == Lin(Start(addr)) + k
  {
    Address.FieldRanges(addr);
    ChainIsConsecutive(FrameOf(addr, len), PlanOf(cfg, addr, len).passes, k);
  }

  /** After the first pass, the block number equals the first block exactly
      when a whole number of drums has been crossed and the first block is not 0. */
  lemma {:induction false} RevisitIndex(fr: Frame, ps: seq<Cursor>, k: nat)
    requires Chained(fr, ps) && 0 < k < |ps| && ps[0].block == fr.firstBlock
    ensures SeekPair(fr, ps[k]) <==> fr.firstBlock != 0 && k % BLOCK_SIZE == 0
  {
    ChainIsConsecutive(fr, ps, k);
    var d, b, d0, b0 := ps[k].drum, ps[k].block, ps[0].drum, fr.firstBlock;
    assert d * 256 + b == d0 * 256 + b0 + k;
    if b == b0 {
      assert k == (d - d0) * 256;
    }
    if b0 != 0 && k % 256 == 0 {
      var q := k / 256;
      assert (d - d0 - q) * 256 == b0 - b;
    }
  }

  /** The seek pair (SEEK_DRUM, SEEK_BLOCK) and the offset start belong to the
      first pass, and recur exactly at passes 256, 512, ... when the first block
      is not 0: the test compares block numbers, not pass counts. */
  lemma SeekPairExactly(cfg: Config, addr: bv32, len: nat, k: nat)
    requires k < |PlanOf(cfg, addr, len).passes|
    ensures SeekPair(FrameOf(addr, len), PlanOf(cfg, addr, len).passes[k])
            <==> k == 0 || (Start(addr).block != 0 && k % BLOCK_SIZE == 0)
  {
    if k > 0 {
      RevisitIndex(FrameOf(addr, len), PlanOf(cfg, addr, len).passes, k);
    }
  }

  // ---------------------------------------------------------------------------
  // Byte placement

  /** Until the first block number comes round again, every pass copies the
      bytes at the virtual addresses that match the buffer index, and pass `k`
      starts at buffer index `256 * k - offset`. */
  lemma {:induction false} AlignedPrefix(fr: Frame, ps: seq<Cursor>, k: nat)
    requires Chained(fr, ps) && |ps| > 0
    requires ps[0].block == fr.firstBlock && ps[0].reader == 0
    requires k < |ps|
    requires k < BLOCK_SIZE || fr.firstBlock == 0 || fr.bitDiff == 0
    ensures Aligned(fr, Lin(ps[0]) * BLOCK_SIZE + fr.bitDiff, ps[k])
    ensures k > 0 ==> ps[k].reader + fr.bitDiff == k * BLOCK_SIZE
    decreases k
  {
    ChainIsConsecutive(fr, ps, k);
    if k > 0 {
      AlignedPrefix(fr, ps, k - 1);
      ChainIsConsecutive(fr, ps, k - 1);
      assert ps[k] == Next(fr, ps[k - 1]);
      assert Counter(fr, ps[k - 1]) + Chunk(fr, ps[k - 1]) == BLOCK_SIZE;
      RevisitIndex(fr, ps, k);
      assert Counter(fr, ps[k]) == 0;
    }
  }

  /** The buffer index of pass `k` follows from the alignment of the passes
      before it, even when pass `k` itself is the revisit. */
  lemma ReaderAfterAlignedPasses(fr: Frame, ps: seq<Cursor>, k: nat)
    requires Chained(fr, ps) && |ps| > 0
    requires ps[0].block == fr.firstBlock && ps[0].reader == 0
    requires 0 < k <= BLOCK_SIZE && k < |ps|
    ensures ps[k].reader + fr.bitDiff == k * BLOCK_SIZE
    ensures Lin(ps[k]) == Lin(ps[0]) + k
  {
    AlignedPrefix(fr, ps, k - 1);
    ChainIsConsecutive(fr, ps, k - 1);
    ChainIsConsecutive(fr, ps, k);
    assert ps[k] == Next(fr, ps[k - 1]);
    assert Counter(fr, ps[k - 1]) + Chunk(fr, ps[k - 1]) == BLOCK_SIZE;
  }

  /** A condition under which no pass re-applies the offset, so every byte
      lands at its own address.  The offset is applied again only at pass 256,
      when the block number comes back to a nonzero first block.  That pass
      needs `SMSA_MAX_BLOCK_ID` of 256 or more (below that the block check
      stops the loop first, `ChainWithinDrum`) and more than 65536 - offset
      bytes, and with offset 0 a second seek pair does no harm. */
  predicate NoMisplacedWrap(cfg: Config, fr: Frame)
  {
    cfg.maxBlockId < BLOCK_SIZE || fr.firstBlock == 0 || fr.bitDiff == 0 || fr.bitDiff + fr.len <= BLOCK_SIZE * BLOCK_SIZE
  }

  /** When `SMSA_MAX_BLOCK_ID < SMSA_BLOCK_SIZE`, passes that all pass the
      block check stay on the drum of the first, one block further each. */
  lemma {:induction false} ChainWithinDrum(cfg: Config, fr: Frame, ps: seq<Cursor>, k: nat)
    requires Chained(fr, ps) && k < |ps| && cfg.maxBlockId < BLOCK_SIZE
    requires forall j :: 0 <= j < |ps| ==> InBounds(cfg, ps[j])
    ensures ps[k].drum == ps[0].drum && ps[k].block == ps[0].block + k
    decreases k
  {
    if k > 0 {
      ChainWithinDrum(cfg, fr, ps, k - 1);
      assert ps[k] == Next(fr, ps[k - 1]);
    }
  }

  /** The cursor the outer loop starts from: first block, nothing copied yet. */
  predicate Initial(fr: Frame, start: Cursor)
  {
    ValidFrame(fr) && start.block == fr.firstBlock && start.reader == 0
  }

  lemma AlignedWalk(cfg: Config, fr: Frame, start: Cursor)
    requires Initial(fr, start)
    requires NoMisplacedWrap(cfg, fr)
    ensures forall k :: 0 <= k < |Walk(cfg, fr, start).passes| ==>
              Aligned(fr, Lin(start) * BLOCK_SIZE + fr.bitDiff, Walk(cfg, fr, start).passes[k])
  {
    var ps := Walk(cfg, fr, start).passes;
    if |ps| > BLOCK_SIZE && fr.firstBlock != 0 && fr.bitDiff != 0 {
      if cfg.maxBlockId < BLOCK_SIZE {
        ChainWithinDrum(cfg, fr, ps, BLOCK_SIZE);
      } else {
        ReaderAfterAlignedPasses(fr, ps, BLOCK_SIZE);
      }
      assert false;
    }
    forall k | 0 <= k < |ps|
      ensures Aligned(fr, Lin(start) * BLOCK_SIZE + fr.bitDiff, ps[k])
    {
      AlignedPrefix(fr, ps, k);
    }
  }

  /** Every pass from `c` on, in the order the loop makes them, is aligned to `a`.
      The same as every pass of `Walk` being aligned (`AlignedFromPlan`), stated
      by recursion so that the disk proofs can follow it pass by pass. */
  predicate AlignedFrom(cfg: Config, fr: Frame, c: Cursor, a: nat)
    requires ValidFrame(fr) && c.reader <= fr.len
    decreases fr.len - c.reader
  {
    c.reader >= fr.len || !InBounds(cfg, c) || (Aligned(fr, a, c) && AlignedFrom(cfg, fr, Next(fr, c), a))
  }

  /** When every pass from `c` on is aligned to `a`, each reached index `i`
      is placed at byte address `a + i`. */
  lemma {:induction false} PlaceAligned(cfg: Config, fr: Frame, c: Cursor, a: nat, i: nat)
    requires ValidFrame(fr) && c.reader <= fr.len && c.reader <= i < Reach(cfg, fr, c)
    requires AlignedFrom(cfg, fr, c, a)
    ensures PlaceFrom(cfg, fr, c, i) == a + i
    decreases fr.len - c.reader
  {
    if c.reader + Chunk(fr, c) <= i {
      PlaceAfterChunk(cfg, fr, c, i);
      PlaceAligned(cfg, fr, Next(fr, c), a, i);
    }
  }

  lemma {:induction false} AlignedFromPlan(cfg: Config, fr: Frame, c: Cursor, a: nat)
    requires ValidFrame(fr) && c.reader <= fr.len
    requires forall k :: 0 <= k < |Walk(cfg, fr, c).passes| ==> Aligned(fr, a, Walk(cfg, fr, c).passes[k])
    ensures AlignedFrom(cfg, fr, c, a)
    ensures Reach(cfg, fr, c) == Walk(cfg, fr, c).reader
    decreases fr.len - c.reader
  {
    if c.reader < fr.len && InBounds(cfg, c) {
      WalkStep(cfg, fr, c);
      var ps := Walk(cfg, fr, c).passes;
      assert Aligned(fr, a, ps[0]);
      forall k | 0 <= k < |ps[1..]|
        ensures Aligned(fr, a, ps[1..][k])
      {
        assert ps[1..][k] == ps[k + 1];
      }
      AlignedFromPlan(cfg, fr, Next(fr, c), a);
    }
  }

  /** The passes of a call that does not wrap a whole drum are aligned to the
      byte address of its first byte. */
  lemma AlignedFromStart(cfg: Config, fr: Frame, st: Cursor)
    requires Initial(fr, st)
    requires NoMisplacedWrap(cfg, fr)
    ensures AlignedFrom(cfg, fr, st, Lin(st) * BLOCK_SIZE + fr.bitDiff)
    ensures Reach(cfg, fr, st) == Walk(cfg, fr, st).reader
  {
    AlignedWalk(cfg, fr, st);
    AlignedFromPlan(cfg, fr, st, Lin(st) * BLOCK_SIZE + fr.bitDiff);
  }

  lemma AlignedPasses(cfg: Config, addr: bv32, len: nat)
    requires NoMisplacedWrap(cfg, FrameOf(addr, len))
    ensures forall k :: 0 <= k < |PlanOf(cfg, addr, len).passes| ==>
              Aligned(FrameOf(addr, len), ByteAddress(addr), PlanOf(cfg, addr, len).passes[k])
  {
    AlignedWalk(cfg, FrameOf(addr, len), Start(addr));
  }

  /** The same for the recursive form, from the start of a call: every pass
      from the first on copies the bytes at `addr + reader`. */
  lemma StartAligned(cfg: Config, addr: bv32, len: nat)
    requires NoMisplacedWrap(cfg, FrameOf(addr, len))
    ensures AlignedFrom(cfg, FrameOf(addr, len), Start(addr), ByteAddress(addr))
  {
    AlignedFromStart(cfg, FrameOf(addr, len), Start(addr));
  }

  lemma WrapWalk(cfg: Config, fr: Frame, start: Cursor)
    requires Initial(fr, start) && fr.firstBlock != 0 && fr.bitDiff != 0
    requires cfg.maxBlockId >= BLOCK_SIZE && start.drum + 1 <= cfg.diskArraySize
    requires fr.bitDiff + fr.len > BLOCK_SIZE * BLOCK_SIZE
    ensures |Walk(cfg, fr, start).passes| > BLOCK_SIZE
    ensures SeekPair(fr, Walk(cfg, fr, start).passes[BLOCK_SIZE])
    ensures var c := Walk(cfg, fr, start).passes[BLOCK_SIZE];
            TargetLin(c) * BLOCK_SIZE + Counter(fr, c)
              == Lin(start) * BLOCK_SIZE + fr.bitDiff + c.reader + fr.bitDiff
  {
    var p := Walk(cfg, fr, start);
    var ps := p.passes;
    var m := |ps|;
    if m <= BLOCK_SIZE {
      assert InBounds(cfg, start);
      assert m > 0;
      ShortChainContinues(cfg, fr, start, ps);
      assert false;
    }
    AlignedPrefix(fr, ps, BLOCK_SIZE - 1);
    ChainIsConsecutive(fr, ps, BLOCK_SIZE);
    assert ps[BLOCK_SIZE] == Next(fr, ps[BLOCK_SIZE - 1]);
    RevisitIndex(fr, ps, BLOCK_SIZE);
  }

  /** With more than 65536 - offset bytes to go, the loop variables after at
      most 256 passes from the first still ask for another pass, and one the
      checks allow. */
  lemma ShortChainContinues(cfg: Config, fr: Frame, start: Cursor, ps: seq<Cursor>)
    requires Initial(fr, start) && cfg.maxBlockId >= BLOCK_SIZE && start.drum + 1 <= cfg.diskArraySize
    requires fr.bitDiff + fr.len > BLOCK_SIZE * BLOCK_SIZE
    requires Chained(fr, ps) && 0 < |ps| <= BLOCK_SIZE && ps[0] == start && InBounds(cfg, start)
    ensures Final(fr, start, ps).reader < fr.len && InBounds(cfg, Final(fr, start, ps))
  {
    var m := |ps|;
    AlignedPrefix(fr, ps, m - 1);
    ChainIsConsecutive(fr, ps, m - 1);
    var f := Final(fr, start, ps);
    assert f == Next(fr, ps[m - 1]);
    assert f.reader <= m * BLOCK_SIZE - fr.bitDiff;
    assert 1 <= f.block <= BLOCK_SIZE;
    assert f.drum * BLOCK_SIZE + f.block == Lin(start) + m;
  }

  /** What happens when the block number comes round again: with the first
      block not 0, a nonzero offset, blocks up to 256 allowed, the next drum
      within the array and more than 65536 - offset bytes requested, pass 256
      exists, seeks again and starts copying at the offset, so the block's
      bytes land `offset` places earlier in the caller's buffer than their
      virtual addresses say. */
  lemma DrumWrapReappliesOffset(cfg: Config, addr: bv32, len: nat)
    requires Start(addr).block != 0 && FrameOf(addr, len).bitDiff != 0
    requires cfg.maxBlockId >= BLOCK_SIZE
    requires Start(addr).drum + 1 <= cfg.diskArraySize
    requires FrameOf(addr, len).bitDiff + len > BLOCK_SIZE * BLOCK_SIZE
    ensures |PlanOf(cfg, addr, len).passes| > BLOCK_SIZE
    ensures SeekPair(FrameOf(addr, len), PlanOf(cfg, addr, len).passes[BLOCK_SIZE])
    ensures var c := PlanOf(cfg, addr, len).passes[BLOCK_SIZE];
            TargetLin(c) * BLOCK_SIZE + Counter(FrameOf(addr, len), c)
              == ByteAddress(addr) + c.reader + FrameOf(addr, len).bitDiff
  {
    WrapWalk(cfg, FrameOf(addr, len), Start(addr));
  }

  // ---------------------------------------------------------------------------
  // Bounds and rollover

  /** A call whose starting drum or block fails the bounds check returns -1
      without a single pass. */
  lemma StartOutOfBounds(cfg: Config, addr: bv32, len: nat)
    requires len > 0 && !InBounds(cfg, Start(addr))
    ensures PlanOf(cfg, addr, len).status == -1
    ensures PlanOf(cfg, addr, len).passes == []
  {
  }

  /** The drum check is `drum > SMSA_DISK_ARRAY_SIZE`: a drum equal to the
      array size passes and its block is read. */
  lemma DrumEqualToArraySizeIsRead(cfg: Config, addr: bv32, len: nat)
    requires len > 0 && Start(addr).drum == cfg.diskArraySize
    requires Start(addr).block <= cfg.maxBlockId
    ensures |PlanOf(cfg, addr, len).passes| > 0
    ensures TargetDrum(PlanOf(cfg, addr, len).passes[0]) == cfg.diskArraySize
  {
    FirstPass(cfg, FrameOf(addr, len), Start(addr));
  }

  /** The rollover `drum++` comes after the drum check: a pass at block 256 of
      drum `SMSA_DISK_ARRAY_SIZE` passes the checks and reads drum
      `SMSA_DISK_ARRAY_SIZE + 1`, whenever `SMSA_MAX_BLOCK_ID` admits block 256. */
  lemma RolloverPastArraySizeIsRead(cfg: Config, fr: Frame, c: Cursor)
    requires ValidFrame(fr) && c.reader < fr.len
    requires c.drum == cfg.diskArraySize && c.block == BLOCK_SIZE && BLOCK_SIZE <= cfg.maxBlockId
    ensures InBounds(cfg, c)
    ensures TargetDrum(c) == cfg.diskArraySize + 1 && TargetBlock(c) == 0
    ensures Next(fr, c).drum == cfg.diskArraySize + 1
  {
  }

  /** A non-empty call whose starting position passes the checks makes a first
      pass at that position. */
  lemma FirstPass(cfg: Config, fr: Frame, start: Cursor)
    requires Initial(fr, start) && fr.len > 0 && InBounds(cfg, start)
    ensures |Walk(cfg, fr, start).passes| > 0
    ensures Walk(cfg, fr, start).passes[0] == start
    ensures TargetDrum(start) == start.drum && TargetBlock(start) == start.block
  {
  }

  /** When `SMSA_MAX_BLOCK_ID < SMSA_BLOCK_SIZE`, the block check fires before
      the block number can reach 256: no pass rolls over, and every pass reads
      the starting drum. */
  lemma NoRolloverBelowBlockSize(cfg: Config, addr: bv32, len: nat, k: nat)
    requires cfg.maxBlockId < BLOCK_SIZE
    requires k < |PlanOf(cfg, addr, len).passes|
    ensures !Rollover(PlanOf(cfg, addr, len).passes[k])
    ensures PlanOf(cfg, addr, len).passes[k].drum == Start(addr).drum
    ensures PlanOf(cfg, addr, len).passes[k].block == Start(addr).block + k
  {
    var ps := PlanOf(cfg, addr, len).passes;
    ChainWithinDrum(cfg, FrameOf(addr, len), ps, k);
  }

  /** Number of blocks a transfer touches: offset plus length, rounded up to blocks. */
  function BlocksSpanned(bitDiff: nat, len: nat): nat
  {
    (bitDiff + len + BLOCK_SIZE - 1) / BLOCK_SIZE
  }

  /** `BlocksSpanned` is `m` exactly when the last byte falls in the `m`-th block. */
  lemma SpannedBetween(bitDiff: nat, len: nat, m: nat)
    requires m > 0
    ensures (m - 1) * BLOCK_SIZE < bitDiff + len <= m * BLOCK_SIZE ==> BlocksSpanned(bitDiff, len) == m
    ensures bitDiff + len > m * BLOCK_SIZE ==> BlocksSpanned(bitDiff, len) > m
  {
  }

  /** When `SMSA_MAX_BLOCK_ID < SMSA_BLOCK_SIZE`, a non-empty transfer returns 0
      exactly when its drum passes the drum check and its last block is within
      `SMSA_MAX_BLOCK_ID`; a transfer that runs past that block returns -1. */
  lemma SingleDrumStatus(cfg: Config, addr: bv32, len: nat)
    requires cfg.maxBlockId < BLOCK_SIZE && len > 0
    ensures PlanOf(cfg, addr, len).status == 0
            <==> Start(addr).drum <= cfg.diskArraySize
                 && Start(addr).block + BlocksSpanned(FrameOf(addr, len).bitDiff, len) <= cfg.maxBlockId + 1
  {
    if |PlanOf(cfg, addr, len).passes| == 0 {
      SpannedBetween(FrameOf(addr, len).bitDiff, len, 1);
    } else {
      StatusFromLastPass(cfg, addr, len);
    }
  }

  /** `SingleDrumStatus` when at least one pass runs: the loop stops right
      after the last pass, which has copied `m * BLOCK_SIZE - bitDiff` bytes. */
  lemma StatusFromLastPass(cfg: Config, addr: bv32, len: nat)
    requires cfg.maxBlockId < BLOCK_SIZE && len > 0 && |PlanOf(cfg, addr, len).passes| > 0
    ensures PlanOf(cfg, addr, len).status == 0
            <==> Start(addr).drum <= cfg.diskArraySize
                 && Start(addr).block + BlocksSpanned(FrameOf(addr, len).bitDiff, len) <= cfg.maxBlockId + 1
  {
    var fr, p := FrameOf(addr, len), PlanOf(cfg, addr, len);
    var ps := p.passes;
    var m := |ps|;
    var b0 := Start(addr).block;
    var last := ps[m - 1];
    NoRolloverBelowBlockSize(cfg, addr, len, m - 1);
    assert InBounds(cfg, last);
    assert m - 1 < BLOCK_SIZE;
    assert last.reader - Counter(fr, last) + fr.bitDiff == (m - 1) * BLOCK_SIZE by {
      AlignedPrefix(fr, ps, m - 1);
      ChainIsConsecutive(fr, ps, m - 1);
    }
    var f := Final(fr, Start(addr), ps);
    assert f == Next(fr, last);
    SpannedBetween(fr.bitDiff, len, m);
    if p.status == 0 {
      assert (m - 1) * BLOCK_SIZE < fr.bitDiff + len <= m * BLOCK_SIZE;
    } else {
      assert f.reader == m * BLOCK_SIZE - fr.bitDiff;
      assert f.drum == last.drum && f.block == b0 + m;
    }
  }
}
